=== FILE: README.md ===
# Shopsite payment, stock and seeding core in Dafny

This project models five pieces of logic from the Shopsite Django store backend. Each is a
pure function over explicit inputs, and the properties the code promises are proved about it.

- **Payment webhook** (`paystack_webhook`, module `Webhook`). The handler takes the HTTP method,
  the parsed JSON payload, the gateway's verify reply and the payment/order store. It returns
  the response, the new store and whether a payment-success email was attempted. A `None`
  response stands for a success path where the view returns nothing.
- **Payment initiation** (`initiate_payment`, module `Initiation`). The model runs the guards
  in order, picks the amount and builds the gateway request (minor units, KES,
  `order_{id}_{seconds}`). It then branches on the gateway's reply, which is an input. The only
  effect is appending one PENDING payment.
- **Stock bookkeeping** (the `post_save`/`post_delete` receivers, module `Stock`). Stock is a map
  from product id to integer, with add and subtract-clamped-at-zero steps. This module also
  holds the shipped-email trigger.
- **Product seeding** (`seed_products`, modules `Seeding`, `Decimal` and `Text`). This covers
  row normalisation (strip, decimal parsing, category cleaning, stock, price and discount,
  image file name) and the per-row counter loop with duplicate detection by name.
- **Staff-or-read-only permission** (`IsStaffOrReadOnly.has_permission`, module `Permissions`).
- **Initiation followed by the webhook** (module `Checkout`). This module composes the two payment
  pieces.

Modelling choices:

- **Store.** The store (module `Ledger`) is a sequence of payment rows plus a map of orders.
  `WellFormed` states the database constraints the code relies on: unique transaction ids, and
  order links that point at existing orders.
- **Status spelling.** The payment-status enumeration is not defined in the code, and its two
  callers compare stored statuses against different spellings:
  - `utility.py:23` compares with lower-case `"completed"`;
  - `webhook.py:49` compares with `"COMPLETED"`.

  So the stored string of each status is a parameter, `Ledger.Spelling`. The lemmas show what
  each spelling leads to.
- **CSV rows.** A CSV row is the map `csv.DictReader` yields. A column missing from a short row
  is `None`, and `.strip()` on it raises.
- **Decimals.** Decimals are exact rationals (`real`).

Behaviour reproduced as written and shown by lemmas, not corrected:

- **Failure overrides success.** A failure event overwrites a COMPLETED payment with FAILED
  (`FailureOverwritesCompleted`, `SuccessThenFailureEndsFailed`).
- **No response on some success paths.** Several success paths answer nothing (`None`).
- **One of the two COMPLETED checks always misses.** With either spelling, a completed payment
  is missed by one of the two checks (`SpellingsDisagree`):
  - if COMPLETED is stored as `"COMPLETED"`, a completed payment does not block a new charge
    (`CompletedPaymentDoesNotBlock`);
  - if it is stored any other way, a redelivered success claim reruns the completion and the
    email (`MisspelledCompletedReruns`).
- **The webhook never finds the initiated payment.** `initiate_payment` stores the gateway's
  reference in the payment's `reference` field and never sets `transaction_id` (`utility.py:89-96`).
  Both webhook branches look payments up by `transaction_id` (`webhook.py:43`, `webhook.py:88`). As
  written, a verified success claim for the initiated reference inserts an unlinked row and then
  raises (first row of "## Findings"). With the pair unpacked, it completes that unlinked row. Either
  way the order stays as it was. A failure event for that reference answers 404
  (`Checkout.InitiatedOrderNeverCreated`).
- **Dead check.** The second `if not amount` check (`utility.py:34-38`) can never fire after
  the first one, so the model has no branch for it.
- **500 after the payment is created.** A gateway success body that lacks `authorization_url`
  or `reference` raises after the payment row is inserted. The model answers 500 with the row
  kept.
- **Missing `Name` column.** When the column is absent from a short row, `.strip()` raises
  before `name` is bound. The warning handler then fails on `name`, and the error reaches the
  per-row handler, which counts the row as an error (`Extraction.Raised`). Any other missing
  stripped column is caught inside `extract_product_data`, which returns `None`, and the row is
  skipped.

## Model

| member | source | states |
|---|---|---|
| Ledger.FindByTransaction | shopsite/store/webhook.py:88 | the row found carries the transaction id and no earlier row does; `None` exactly when no row carries it |
| Ledger.FindByTransactionUnique | shopsite/store/webhook.py:42-43 | with unique transaction ids, the lookup returns the one row that carries the id |
| Webhook.NewPayment | shopsite/store/webhook.py:42-47 | a payment first seen by the webhook has the reference as transaction id, no order, PENDING status, and amount × 100 equal to the verified minor-unit amount |
| Webhook.GetOrCreate | shopsite/store/webhook.py:42-48 | an existing row is returned with the store unchanged; otherwise exactly one new row is appended; orders are untouched and well-formedness is kept |
| Webhook.Complete | shopsite/store/webhook.py:49-72 | only that payment becomes COMPLETED and only its linked order becomes CREATED; the email is attempted exactly when an order is linked; a failed send answers 500 and keeps both updates |
| Webhook.ReconcileCharge | shopsite/store/webhook.py:42-72 | for the row the lookup finds: stored as "COMPLETED" it is a silent no-op on the whole store; otherwise it is completed; an unknown reference is first inserted as the PENDING row and then completed (or left, when PENDING itself is spelled "COMPLETED") |
| Webhook.RecordFailure | shopsite/store/webhook.py:84-92 | an unknown reference answers 404 with the store unchanged; otherwise no response, no email, and only the matching row becomes FAILED, with orders and other rows unchanged |
| Webhook.Handle | shopsite/store/webhook.py:19-98 | non-POST gives 405, bad JSON 400, an unknown event 400, a missing reference 400 or a silent no-op, an unverified claim 400, all with the store unchanged; orders are never added, at most one payment is appended, only the referenced row changes; only a verified success completes a payment or moves an order, and only to CREATED |
| Webhook.VerifiedChargeCompletes | shopsite/store/webhook.py:37-54 | a verified success claim leaves the referenced payment COMPLETED; a new payment records verified amount / 100; a linked order of a payment not yet completed becomes CREATED and the email is attempted |
| Webhook.RedeliveryIsNoOp | shopsite/store/webhook.py:49 | when COMPLETED is stored as "COMPLETED", delivering the same verified success again answers nothing, changes nothing and sends no email |
| Webhook.CompletedIsNoOp | shopsite/store/webhook.py:37-49 | when COMPLETED is stored as "COMPLETED", a verified success claim for any payment already COMPLETED answers nothing, changes nothing and sends no email |
| Webhook.UnlinkedChargeKeepsOrders | shopsite/store/webhook.py:42-54 | a verified success claim whose transaction id only unlinked payments carry (or none does) leaves every order as it was |
| Webhook.MisspelledCompletedReruns | shopsite/store/webhook.py:49-54 | under any other spelling, a redelivered claim moves a shipped order back to CREATED and emails again |
| Webhook.EmailFailureKeepsUpdates | shopsite/store/webhook.py:50-72 | whether the email send fails changes only the response (500 instead of none), never the store updates |
| Webhook.FailureOverwritesCompleted | shopsite/store/webhook.py:84-90 | a failure event for a COMPLETED payment sets it to FAILED and answers nothing |
| Webhook.SuccessThenFailureEndsFailed | shopsite/store/webhook.py:42-90 | a verified success followed by a failure event for the same reference leaves the payment FAILED |
| Webhook.ReconcileChargeAsWritten | shopsite/store/webhook.py:42-49 | as written, reading `.status` from the pair `get_or_create` returns raises AttributeError; the store is left as `get_or_create` made it: unchanged for a known transaction id, otherwise plus the one inserted PENDING row |
| Webhook.AsWrittenNeverCompletes | shopsite/store/webhook.py:42-54 | as written, no payment or order status changes and the referenced payment is not COMPLETED, while the intended reading completes it |
| Initiation.Reference | shopsite/store/utility.py:44 | the reference starts with "order_" |
| Initiation.ReferenceRoundTrip | shopsite/store/utility.py:44 | reading `order_{id}_{t}` back yields the order id and the timestamp |
| Initiation.ReferenceInjective | shopsite/store/utility.py:44 | two charges share a reference only for the same order in the same second |
| Initiation.HasBlockingPayment | shopsite/store/utility.py:22-24 | true exactly when some payment of the order has a stored status in the lower-case blocking set |
| Initiation.ChargeAmount | shopsite/store/utility.py:30 | a non-zero override is charged as given; no override, or a zero one, charges the order total |
| Initiation.Initiate | shopsite/store/utility.py:12-130 | guards in order (already paid, blocking payment, amount ≤ 0), each refusing with 400 without a request or payment; the request is sent exactly past the guards, with amount × 100, KES, the email and the reference; exactly one PENDING "paystack" payment with the chosen amount and gateway reference is appended, and only on 200 with `status is True`; 200 only with checkout URL and reference; a success body lacking either answers 500 after the request, with the row kept; network error 400, other error 500, non-200 passed through, non-true status 400, all with no payment |
| Checkout.InitiatedOrderNeverCreated | shopsite/store/utility.py:89-96 | after a successful initiation, the appended row links the order and holds the gateway reference; a verified success claim for that reference leaves every order as it was (given that no earlier payment carrying it as transaction id is linked to an order, and no code path creates one), and a failure event for it answers 404 when no payment carries it as transaction id |
| Checkout.InitiatedRowUnkeyed | shopsite/store/webhook.py:43 | appending a payment without a transaction id adds nothing a lookup by transaction id can find |
| Initiation.SpellingsDisagree | shopsite/store/utility.py:22-24 | no spelling of COMPLETED is both in the lower-case blocking set and equal to "COMPLETED" |
| Initiation.CompletedPaymentDoesNotBlock | shopsite/store/utility.py:22-27 | when COMPLETED is stored as "COMPLETED", an order in PROCESSING with a completed payment is charged again |
| Initiation.PaidOrderNeverCharged | shopsite/store/utility.py:19-20 | a CREATED order gets 400 with no gateway request and no payment, whatever the gateway would say |
| Stock.ClampAtZero | shopsite/store/signals.py:117-118 | the clamped value is the value when non-negative and 0 otherwise |
| Stock.OnInventorySaved | shopsite/store/signals.py:97-106 | a created record adds exactly its quantity to its product; re-saving changes nothing; other products are unchanged |
| Stock.OnInventoryDeleted | shopsite/store/signals.py:110-120 | the product's stock becomes max(0, stock − quantity_added); other products are unchanged |
| Stock.OnOrderItemSaved | shopsite/store/signals.py:124-135 | a created item sets max(0, stock − quantity); re-saving changes nothing; other products are unchanged |
| Stock.OnOrderItemDeleted | shopsite/store/signals.py:139-149 | deleting an item adds its quantity back, with no clamp; other products are unchanged |
| Stock.OnOrderItemDeletedAsWritten | shopsite/store/signals.py:139 | as written, the receiver raises TypeError on every delete and the stock is left as it was |
| Stock.AsWrittenRestockLost | shopsite/store/signals.py:139-148 | as written, deleting an item with positive quantity does not give the intended restocked value |
| Stock.DecrementsKeepNonNegative | shopsite/store/signals.py:114-134 | both clamped decrements keep every stock ≥ 0, whatever the quantity |
| Stock.IncrementsKeepNonNegative | shopsite/store/signals.py:101-148 | the increments keep stock ≥ 0 for non-negative quantities |
| Stock.InventoryAddDeleteRestores | shopsite/store/signals.py:101-119 | adding an inventory record and deleting it restores every stock |
| Stock.OrderThenCancelRestoresIff | shopsite/store/signals.py:128-148 | ordering then deleting an item restores the stock exactly when the stock covered the quantity, and never leaves less than before |
| Stock.OnOrderSaved | shopsite/store/signals.py:59-75 | the shipped email is attempted exactly for an update whose status is SHIPPED; a failed send is swallowed |
| Permissions.HasPermission | shopsite/store/permissions.py:14-17 | a safe method is always allowed; a present, authenticated staff user is always allowed; an allowed unsafe method implies such a user |
| Permissions.SafeMethodsAlwaysAllowed | shopsite/store/permissions.py:15-16 | GET, HEAD and OPTIONS are allowed for any user, present or not |
| Permissions.UnsafeMethodNeedsStaff | shopsite/store/permissions.py:17 | any other method is allowed exactly for a present, authenticated staff user; unauthenticated and non-staff users are refused |
| Permissions.NonStaffIsReadOnly | shopsite/store/permissions.py:15-17 | a user who is not authenticated staff is allowed exactly the safe methods |
| Permissions.PermissionMonotone | shopsite/store/permissions.py:17 | gaining authentication or staff status never removes a permission |
| Permissions.WritersAreStaff | shopsite/store/permissions.py:15-17 | a user may use every unsafe method exactly when authenticated staff |
| Text.Strip | shopsite/store/management/commands/seed_products.py:112 | the result has no whitespace at either end, uses only characters of the input, and is the input when that is already stripped |
| Text.TrimStartSlice | shopsite/store/management/commands/seed_products.py:112 | stripping the front removes exactly a leading run of whitespace |
| Text.TrimEndSlice | shopsite/store/management/commands/seed_products.py:112 | stripping the back removes exactly a trailing run of whitespace |
| Text.StripSlice | shopsite/store/management/commands/seed_products.py:112 | the stripped text is the slice of the input between a whitespace prefix and a whitespace suffix |
| Text.StripPadded | shopsite/store/management/commands/seed_products.py:112 | stripping whitespace padding around stripped text gives that text back |
| Text.Lower | shopsite/store/management/commands/seed_products.py:65 | same length, each character lowered, and no upper-case ASCII letter left |
| Text.AfterLast | shopsite/store/management/commands/seed_products.py:233 | `split(".")[-1]`: a suffix with no separator, preceded by the separator unless it is the whole text |
| Text.RemoveChar | shopsite/store/management/commands/seed_products.py:189 | `replace(c, "")`: no `c` left, every other character of the input kept and nothing added; the input when it has no `c` |
| Text.ReplaceChar | shopsite/store/management/commands/seed_products.py:205 | each character equal to the old one becomes the new one and every other is kept in place |
| Text.ReplaceCharAppend | shopsite/store/management/commands/seed_products.py:205 | replacing in a concatenation is the concatenation of the replacements |
| Text.StripReplace | shopsite/store/management/commands/seed_products.py:205 | when neither character is whitespace, replacing then stripping equals stripping then replacing |
| Text.RemoveCharAppend | shopsite/store/management/commands/seed_products.py:189 | removing a character from a concatenation removes it from each part, keeping the order of what is left |
| Text.BeforeFirst | shopsite/store/management/commands/seed_products.py:202 | the text before the first separator: no separator inside, the separator (if any) right after it, the whole text when there is none |
| Text.BeforeFirstIsPrefix | shopsite/store/management/commands/seed_products.py:202 | the first piece of a split is a prefix of the text |
| Text.BeforeFirstOfPrefix | shopsite/store/management/commands/seed_products.py:202 | the first piece of text `a` + separator + rest is `a` when `a` has no separator |
| Text.IndexFromSkips | shopsite/store/management/commands/seed_products.py:202 | the scan for a character lands on its first occurrence at or after the start, or at the end when there is none |
| Text.PrefixValueAgree | shopsite/store/management/commands/seed_products.py:134 | the value of a digit prefix depends only on the digits in it |
| Text.NatToStringRoundTrip | shopsite/store/management/commands/seed_products.py:133-134 | `int` of the digits of `n` is `n` |
| Decimal.Clean | shopsite/store/management/commands/seed_products.py:189 | the cleaned text has no "$" or ","; it keeps every other character of the stripped input and adds none |
| Decimal.CleanStripped | shopsite/store/management/commands/seed_products.py:189 | on stripped text, cleaning is removing "$" and then "," |
| Decimal.ParseLiteral | shopsite/store/management/commands/seed_products.py:192 | a literal that parses contains a digit |
| Decimal.Signed | shopsite/store/management/commands/seed_products.py:192 | a stripped literal with an optional "+" or "-" that parses contains a digit |
| Decimal.ParseUnsigned | shopsite/store/management/commands/seed_products.py:192 | an unsigned literal that parses is non-negative and contains a digit |
| Decimal.SignedDigits | shopsite/store/management/commands/seed_products.py:192 | "+" before a digit string keeps its value and "-" negates it |
| Decimal.PointLiteral | shopsite/store/management/commands/seed_products.py:192 | digits, ".", digits with at least one digit parse, to the integer part plus the fraction, and nothing else does |
| Decimal.FractionValue | shopsite/store/management/commands/seed_products.py:192 | the fraction digits `d₁…dₖ` are worth their integer value / 10^k |
| Decimal.DigitsValueAppend | shopsite/store/management/commands/seed_products.py:192 | the value of two digit strings side by side is the first scaled by 10^(length of the second) plus the second |
| Decimal.LiteralParse | shopsite/store/management/commands/seed_products.py:192 | `ip.fp` parses to ip + fraction and `-ip.fp` to its negation |
| Decimal.DecimalRoundTrip | shopsite/store/management/commands/seed_products.py:183-194 | `str(i)` + "." + digits, with or without a leading "-", parses back to ±(i + fraction) |
| Decimal.GroupedDollarAmount | shopsite/store/management/commands/seed_products.py:189-192 | "$" + `str(a)` + "," + three digits + "." + digits parses to a·1000 + group + fraction |
| Decimal.GroupedDollarExample | shopsite/store/management/commands/seed_products.py:183-194 | "$1,234.50" parses to 1234.5 |
| Decimal.NegativeFractionExample | shopsite/store/management/commands/seed_products.py:183-194 | "-0.5" parses to −0.5 |
| Decimal.ParseDecimal | shopsite/store/management/commands/seed_products.py:183-194 | an empty or missing value gives the default; otherwise the cleaned text's value when it parses, else the default |
| Decimal.NoDigitGivesDefault | shopsite/store/management/commands/seed_products.py:185-194 | text without a digit always yields the default |
| Decimal.DollarAmountRoundTrip | shopsite/store/management/commands/seed_products.py:189-192 | "$" followed by the digits of `n` parses back to `n` |
| Decimal.RoundCents | shopsite/store/management/commands/seed_products.py:165 | the result is a whole number of cents within 0.005 of the input; at an exact half cent it is the even number of cents |
| Decimal.RoundCentsWithin | shopsite/store/management/commands/seed_products.py:165 | rounding keeps a value inside any whole-cent interval containing it |
| Seeding.FirstCategory | shopsite/store/management/commands/seed_products.py:202-205 | the text before the first ",", with every ">" turned into "-", stripped; it has no "," or ">"; an already clean value is kept |
| Seeding.CleanCategory | shopsite/store/management/commands/seed_products.py:196-208 | never empty, stripped, without "," or ">"; an empty or missing value gives "General"; otherwise the first category when it is non-empty, else "General"; a clean value is kept |
| Seeding.CleanCategoryExample | shopsite/store/management/commands/seed_products.py:196-206 | "Clothing > Shirts, Hats" gives "Clothing - Shirts" |
| Seeding.CleanCategoryIdempotent | shopsite/store/management/commands/seed_products.py:196-208 | cleaning a cleaned category changes nothing |
| Seeding.BlankCategoryIsGeneral | shopsite/store/management/commands/seed_products.py:205-206 | a first piece that is blank once stripped gives "General" |
| Seeding.Describe | shopsite/store/management/commands/seed_products.py:117-121 | the short description if non-empty, else the long one, else "Quality product: " + name; never empty |
| Seeding.StockLevel | shopsite/store/management/commands/seed_products.py:130-138 | an all-digit stock column gives its integer; else "1"/"true" in stock gives 100; else 0 |
| Seeding.StockColumnRoundTrip | shopsite/store/management/commands/seed_products.py:133-134 | a stock column holding `str(n)` gives stock `n` whatever "In stock?" says |
| Seeding.DiscountPercent | shopsite/store/management/commands/seed_products.py:153 | the percentage taken off: the sale price is the regular price times (100 − r) / 100 |
| Seeding.DiscountInRange | shopsite/store/management/commands/seed_products.py:152-153 | for 0 < sale < regular, the discount lies strictly between 0 and 100 |
| Seeding.Price | shopsite/store/management/commands/seed_products.py:124-165 | with 0 < sale < regular the price is the sale price and the discount is the percentage rounded to cents; otherwise the discount is 0 and the price is the regular price, or the sale price with default 9.99 when the regular is not positive; the discount is always within [0, 100] |
| Seeding.ImageExtension | shopsite/store/management/commands/seed_products.py:233-235 | the lower-cased last "."-segment when it is jpg, jpeg, png or webp, otherwise "jpg" |
| Seeding.ImageFileName | shopsite/store/management/commands/seed_products.py:238 | the lower-cased name with spaces turned into "_", then ".", then the extension |
| Seeding.FileNameExtension | shopsite/store/management/commands/seed_products.py:233-238 | the text after the last "." of a saved file name is the extension it was saved with |
| Seeding.ImageFileNameKeepsExtension | shopsite/store/management/commands/seed_products.py:233-238 | the extension read back from a saved file name is the one it was saved with |
| Seeding.DownloadProductImage | shopsite/store/management/commands/seed_products.py:210-240 | a file exactly for a non-empty stripped first URL that downloads, named from the product name and that URL's extension; its extension is a known image type |
| Seeding.Assemble | shopsite/store/management/commands/seed_products.py:116-175 | the product has the given name, the description, stock, price and discount, category, stripped tags and featured flag the columns give, and the downloaded image only when images are downloaded |
| Seeding.ExtractProductData | shopsite/store/management/commands/seed_products.py:108-181 | a missing Name column raises; a blank name or a missing stripped column gives no product; a non-blank name with every stripped column present gives the assembled product, named by the stripped name |
| Seeding.Settle | shopsite/store/management/commands/seed_products.py:71-87 | create exactly an extracted product whose name is not taken; a raised extraction is exactly an error |
| Seeding.ProcessRow | shopsite/store/management/commands/seed_products.py:62-93 | a created product has a non-empty name not yet in the catalogue |
| Seeding.ProcessRowCases | shopsite/store/management/commands/seed_products.py:63-71 | a missing Type is an error, a variation is skipped, any other row is settled on its extraction |
| Seeding.RunRows | shopsite/store/management/commands/seed_products.py:58-93 | every row is counted exactly once; one product is created per created count; all created names are fresh |
| Seeding.FreshNamesMeans | shopsite/store/management/commands/seed_products.py:73-79 | fresh names are absent from the starting catalogue and pairwise distinct |
| Seeding.RunRowsSnoc | shopsite/store/management/commands/seed_products.py:62-93 | running one more row is one more step of the loop |
| Seeding.Seed | shopsite/store/management/commands/seed_products.py:35-93 | no CSV gives no counts; otherwise the loop's counts and products are those of `RunRows`, counts add up to the row count, and the catalogue is the start (emptied when clearing) plus the created names, all fresh and distinct |

## Findings

| source | as written | input that shows it | evidently intended | confidence | as-written member | corrected member |
|---|---|---|---|---|---|---|
| shopsite/store/webhook.py:42-49 | `payment = Payment.objects.get_or_create(...)` binds the pair `(payment, created)`, so `payment.status` raises AttributeError, which the handler does not catch | any POST of a `charge.success` event with a non-empty reference whose verify reply has `status` true and `data.status == "success"` | unpack the pair, `payment, _ = ...get_or_create(...)`, so the payment found by transaction id is completed, and its order, when it has one, is moved to CREATED | not executed | Webhook.AsWrittenNeverCompletes | Webhook.VerifiedChargeCompletes |
| shopsite/store/signals.py:139 | `restock_on_order_cancel(sender, instance, created, **kwargs)` requires a `created` argument that `post_delete` does not send, so every order-item delete raises TypeError and nothing is restocked | deleting any order item, e.g. quantity 2 of a product with stock 5 (stock stays 5; the receiver runs inside the delete's atomic block, so the raise also rolls the delete back) | drop the `created` parameter so the quantity is added back (stock 7) | not executed | Stock.AsWrittenRestockLost | Stock.OnOrderItemDeleted |

## Left out

- Gateway HTTP calls (initialize, verify, image download) are not made. Their replies are inputs
  (`GatewayReply`, `VerifyReply`, `fetched`). Timeouts, `raise_for_status` and every download
  exception collapse into "no file".
- There is no request-signature (HMAC) check in the webhook, so none is modelled.
- The Django ORM is a sequence of rows and a map of orders. Transactions, `get_or_create` race
  safety and concurrent saves are not modelled.
- Email sending is a flag that says whether the send raises. The email templates, the Celery
  app and `emails/tasks.py` are not part of this model.
- Cache invalidation in the signals is left out. It has no effect on the modelled data.
- The average-rating recalculation (`signals.py:49-55`) and the review-cache receivers are left
  out. They use floating-point `round` over a database aggregate.
- The `metadata` and `channels` parts of the gateway request are left out. So are the
  `float(order.total_price)` and `str(payment.id)` fields of the 200 reply.
- Webhook.Handle: the payload is either malformed or a JSON object, and the model leaves out
  three Python failures:
  - a JSON payload that is not an object, where `.get` raises;
  - a `data` that is not an object;
  - a verify reply missing `data.amount` or `data.currency`, which raises KeyError.

  All three would escape as server errors. The verified amount is divided exactly, not in
  floating point.
- Webhook.Handle: `Malformed` stands only for a body that decodes as UTF-8 but is not JSON. A body
  that is not valid UTF-8 makes `json.loads` raise UnicodeDecodeError, which is not a
  `JSONDecodeError`, so it escapes as a server error; the model has no payload for it.
- Webhook.Handle: the verify call always answers. A `requests.get` that raises (network error)
  would escape as a server error, and a verify reply that is not JSON raises `JSONDecodeError`,
  which the handler at `webhook.py:95` answers with 400 "Invalid JSON payload". Neither case is a
  `VerifyReply`.
- Webhook.Handle: the reference is a string or absent. A truthy reference of another JSON type
  (a number, say), which the source would send to the verify URL as its `str`, cannot be
  expressed.
- Webhook.NewPayment: fields that `get_or_create` leaves to the model's defaults are modelled
  as follows. The order link is `None`, the status is PENDING, the payment method is `""` and
  the reference is `None`. The actual defaults are not shown in the code.
- Initiation.Initiate: the gateway body is assumed to decode. A body that fails `response.json()`
  raises through one of the two exception handlers, and the model does not say which. The
  customer email is taken from the order record.
- Initiation.Initiate: a gateway success body whose `reference` is JSON `null` is treated like an
  absent one (500 with the row kept). In the source, `null` does not raise at `utility.py:102`, so
  it answers 200 with a `null` reference. Keeping the row for an absent reference also assumes
  `Payment.reference` accepts `None`; the field's definition is not part of this model.
- Initiation.Initiate: amounts are exact rationals. `amount * 100` is not rounded to the
  precision of a Python `Decimal` or float.
- Decimal.ParseLiteral: only plain signed decimal literals are accepted. Exponents, `NaN`,
  `Infinity`, digit underscores and non-ASCII digits, which `Decimal` also accepts, parse here as
  failures (the default).
- Decimal.RoundCents: the discount is computed exactly and then rounded half-even. `Decimal`'s
  28-digit division precision is not modelled.
- `str.lower` and `str.isdigit` are modelled on ASCII only (`Text.Lower`, `Text.IsDigitString`); `str.strip` removes the full `str.isspace` set.
- Seeding.Seed: a CSV that cannot be read or decoded, and a `Product.objects.create` that fails
  (a row the source would count as an error), are not modelled. Creation always succeeds. The
  constant `average_rating` of `Decimal("0.00")` and the console messages are left out.
- Seeding.DownloadProductImage: only the file name is modelled, not the file content or the
  temporary file.
- Stock: stock values are unbounded integers. Any column constraint on `Product.stock` lives in
  `models.py`, which holds only the user manager, and is not part of this model.
- `wait_for_redis.py`, the serializers, views, URL configurations, filters, pagination,
  throttling and middleware are framework glue with no logic modelled here.

=== FILE: checkout.dfy ===
/**
 * Charge initiation followed by the gateway's webhook, as written: the
 * payment `initiate_payment` creates keeps the gateway's reference in
 * `reference` and leaves `transaction_id` empty, while both webhook
 * branches look payments up by transaction id.
 */
module Checkout {
  import opened Common
  import opened Ledger
  import Initiation
  import Webhook

  /**
   * The webhook never reaches the payment initiation created. A verified
   * success claim for the reference the gateway returned leaves every
   * order's status as it was (the claim completes an unlinked row found or
   * inserted by transaction id instead), and a failure event for that
   * reference answers 404 when no payment carries it as transaction id.
   */
  lemma InitiatedOrderNeverCreated(orderId: nat, order: Order, amountOverride: Option<real>, now: nat,
                                   body: Initiation.GatewayBody, sp: Spelling, st: Store,
                                   verify: Webhook.VerifyReply, emailFails: bool)
    requires Initiation.Initiate(orderId, order, amountOverride, now, Initiation.Http(200, body), sp, st.payments).code == 200
    requires forall j :: 0 <= j < |st.payments| && st.payments[j].transactionId == body.reference ==>
               st.payments[j].order.None?
    ensures var init := Initiation.Initiate(orderId, order, amountOverride, now, Initiation.Http(200, body), sp, st.payments);
            var tx := init.reference.value;
            var after := st.(payments := init.payments);
            && |after.payments| == |st.payments| + 1
            && after.payments[|st.payments|].order == Some(orderId)
            && after.payments[|st.payments|].reference == Some(tx)
            && Webhook.Handle("POST", Webhook.Parsed(Some(Webhook.ChargeSuccess), Some(tx)), verify, emailFails, sp, after).store.orders
                 == st.orders
    ensures var init := Initiation.Initiate(orderId, order, amountOverride, now, Initiation.Http(200, body), sp, st.payments);
            var tx := init.reference.value;
            var after := st.(payments := init.payments);
            tx != "" && (forall j :: 0 <= j < |st.payments| ==> st.payments[j].transactionId != Some(tx)) ==>
              Webhook.Handle("POST", Webhook.Parsed(Some(Webhook.PaymentFailed), Some(tx)), verify, emailFails, sp, after).response
                == Some(Webhook.Response(404, "Payment not found"))
  {
    var init := Initiation.Initiate(orderId, order, amountOverride, now, Initiation.Http(200, body), sp, st.payments);
    var tx := init.reference.value;
    var after := st.(payments := init.payments);
    InitiatedRowUnkeyed(st.payments, init.payments, tx);
    Webhook.UnlinkedChargeKeepsOrders(verify, emailFails, sp, after, tx);
  }

  /** Appending a row with no transaction id adds no row that a lookup by transaction id can find. */
  lemma InitiatedRowUnkeyed(ps: seq<Payment>, qs: seq<Payment>, tx: string)
    requires |qs| == |ps| + 1 && qs[..|ps|] == ps && qs[|ps|].transactionId.None?
    requires forall j :: 0 <= j < |ps| && ps[j].transactionId == Some(tx) ==> ps[j].order.None?
    ensures forall j :: 0 <= j < |qs| && qs[j].transactionId == Some(tx) ==> qs[j].order.None?
    ensures (forall j :: 0 <= j < |ps| ==> ps[j].transactionId != Some(tx)) ==> FindByTransaction(qs, tx).None?
  {
    assert forall j :: 0 <= j < |ps| ==> qs[j] == ps[j];
  }
}

=== FILE: common.dfy ===
/** Shared wrapper types: Python's `None` and the value-or-nothing returns of the store code. */
module Common {

  /** A value that may be absent (Python `None`). */
  datatype Option<+T> = None | Some(value: T)
}

=== FILE: decimal.dfy ===
/**
 * Decimal reading for the CSV seeder: `parse_decimal` (strip, drop "$" and
 * ",", parse, fall back to a default) over the plain signed decimal
 * literals of Python's `Decimal`, and `round(x, 2)` with half-even ties.
 * Values are exact rationals (`real`).
 */
module Decimal {
  import opened Common
  import opened Text

  function Pow10(k: nat): (r: nat)
    ensures r >= 1
  {
    if k == 0 then 1 else 10 * Pow10(k - 1)
  }

  /** Some character is an ASCII digit. */
  predicate HasDigit(s: string) {
    exists c :: c in s && IsDigit(c)
  }

  /** An unsigned literal: `digits`, `digits.`, `.digits` or `digits.digits`. */
  function ParseUnsigned(u: string): (r: Option<real>)
    ensures r.Some? ==> r.value >= 0.0 && HasDigit(u)
  {
    var k := IndexFrom(u, '.', 0);
    if k == |u| then
      if IsDigitString(u) then
        assert u[0] in u;
        Some(DigitsValue(u) as real)
      else None
    else
      var r := PointLiteral(u[..k], u[k + 1..]);
      assert r.Some? && k > 0 ==> u[0] == u[..k][0] && u[0] in u && IsDigit(u[0]);
      assert r.Some? && k + 1 < |u| ==> u[k + 1] == u[k + 1..][0] && u[k + 1] in u && IsDigit(u[k + 1]);
      r
  }

  /** The literal `ip.fp`: both parts digits and not both empty; worth `ip` plus the fraction `.fp`. */
  function PointLiteral(ip: string, fp: string): (r: Option<real>)
    ensures r.Some? <==> AllDigits(ip) && AllDigits(fp) && (ip != [] || fp != [])
    ensures r.Some? ==> r.value == DigitsValue(ip) as real + Fraction(fp)
  {
    if !AllDigits(ip) || !AllDigits(fp) || (ip == [] && fp == []) then None
    else Some(DigitsValue(ip) as real + Fraction(fp))
  }

  /** The value of the digits after a decimal point: `.d1d2...` is `(d1 + .d2...) / 10`. */
  function Fraction(fp: string): (r: real)
    requires AllDigits(fp)
    ensures 0.0 <= r < 1.0
  {
    FractionFrom(fp, 0)
  }

  /** The value of the digits of `fp` from position `i` on, read after a decimal point. */
  function FractionFrom(fp: string, i: nat): (r: real)
    requires AllDigits(fp) && i <= |fp|
    ensures 0.0 <= r < 1.0
    decreases |fp| - i
  {
    if i == |fp| then 0.0 else (DigitValue(fp[i]) as real + FractionFrom(fp, i + 1)) / 10.0
  }

  /** `Decimal(s)` for a plain literal: surrounding whitespace, an optional sign, an unsigned literal. */
  function ParseLiteral(s: string): (r: Option<real>)
    ensures r.Some? ==> HasDigit(s)
  {
    Signed(Strip(s))
  }

  /** A stripped literal: an optional "+" or "-" before an unsigned literal. */
  function Signed(t: string): (r: Option<real>)
    ensures r.Some? ==> HasDigit(t)
  {
    if t != [] && (t[0] == '+' || t[0] == '-') then
      var x := ParseUnsigned(t[1..]);
      if x.None? then None
      else
        assert forall c :: c in t[1..] ==> c in t;
        Some(if t[0] == '-' then -x.value else x.value)
    else
      ParseUnsigned(t)
  }

  /** The text `parse_decimal` hands to `Decimal`: stripped, with every "$" and "," removed. */
  function Clean(value: string): (r: string)
    ensures '$' !in r && ',' !in r
    ensures forall c :: c in r ==> c in value
    ensures forall c :: c in Strip(value) && c != '$' && c != ',' ==> c in r
  {
    RemoveChar(RemoveChar(Strip(value), '$'), ',')
  }

  /** `parse_decimal(value, default)`: a missing or empty value, or text that does not parse, gives the default. */
  function ParseDecimal(value: Option<string>, default: real): (r: real)
    ensures value.None? || value == Some("") ==> r == default
    ensures value.Some? && value.value != "" && ParseLiteral(Clean(value.value)).Some? ==>
              r == ParseLiteral(Clean(value.value)).value
    ensures value.Some? && value.value != "" && ParseLiteral(Clean(value.value)).None? ==> r == default
  {
    if value.None? || value.value == "" then default
    else
      match ParseLiteral(Clean(value.value))
      case Some(x) => x
      case None => default
  }

  /** Text without a single digit always yields the default. */
  lemma NoDigitGivesDefault(value: string, default: real)
    requires !HasDigit(value)
    ensures ParseDecimal(Some(value), default) == default
  {
  }

  /** A string of digits is left alone by stripping and by removing "$" and ",". */
  lemma DigitsAreClean(d: string)
    requires IsDigitString(d)
    ensures Strip(d) == d && Clean(d) == d
  {
    assert !IsSpace(d[0]) && !IsSpace(d[|d| - 1]);
  }

  /** A leading "$" is what `Clean` removes. */
  lemma DollarIsCleaned(d: string)
    requires IsDigitString(d)
    ensures Clean("$" + d) == d
  {
    var v := "$" + d;
    assert !IsSpace(v[0]) && !IsSpace(v[|v| - 1]);
    assert v[1..] == d;
    DigitsAreClean(d);
  }

  /** A digit string parses as the number it denotes. */
  lemma DigitsParse(d: string)
    requires IsDigitString(d)
    ensures ParseLiteral(d) == Some(DigitsValue(d) as real)
  {
    DigitsAreClean(d);
    assert '.' !in d;
    assert IndexFrom(d, '.', 0) == |d| by {
      IndexFromSkips(d, '.', 0, |d|);
    }
  }

  /** A signed digit string: "+" keeps the value and "-" negates it. */
  lemma SignedDigits(d: string)
    requires IsDigitString(d)
    ensures ParseLiteral("+" + d) == ParseLiteral(d) == Some(DigitsValue(d) as real)
    ensures ParseLiteral("-" + d) == Some(-(DigitsValue(d) as real))
  {
    var e := DigitsValue(d) as real;
    DigitsParse(d);
    DigitsAreClean(d);
    assert ParseUnsigned(d) == Some(e);
    SignedIsStripped(d);
    SignSigned("+" + d, d, e);
    SignSigned("-" + d, d, e);
  }

  /** A sign before a digit string leaves it stripped. */
  lemma SignedIsStripped(d: string)
    requires IsDigitString(d)
    ensures IsStripped("+" + d) && IsStripped("-" + d)
  {
    assert ("+" + d)[0] == '+' && ("-" + d)[0] == '-';
    assert ("+" + d)[|d|] == ("-" + d)[|d|] == d[|d| - 1];
  }

  /** A stripped sign and unsigned literal reads as the literal, negated for "-". */
  lemma SignSigned(t: string, u: string, e: real)
    requires IsStripped(t) && |t| == |u| + 1 && (t[0] == '+' || t[0] == '-') && t[1..] == u && ParseUnsigned(u) == Some(e)
    ensures ParseLiteral(t) == Some(if t[0] == '-' then -e else e)
  {
  }

  /** A dollar amount written as a whole number reads back as that number. */
  lemma DollarAmountRoundTrip(n: nat, default: real)
    ensures ParseDecimal(Some("$" + NatToString(n)), default) == n as real
  {
    var digits := NatToString(n);
    DollarIsCleaned(digits);
    DigitsParse(digits);
    NatToStringRoundTrip(n);
  }

  /** Digit strings joined are a digit string. */
  lemma AllDigitsAppend(x: string, y: string)
    requires AllDigits(x) && AllDigits(y)
    ensures AllDigits(x + y)
  {
    forall k | 0 <= k < |x + y| ensures IsDigit((x + y)[k]) {
      if k < |x| { assert (x + y)[k] == x[k]; } else { assert (x + y)[k] == y[k - |x|]; }
    }
  }

  lemma ShiftDigit(a: int, p: int, b: int, d: int)
    ensures 10 * (a * p + b) + d == a * (10 * p) + (10 * b + d)
  {
  }

  /** Digits written after other digits shift them up by a power of ten. */
  lemma DigitsValueAppend(x: string, y: string)
    requires AllDigits(x) && AllDigits(y)
    ensures AllDigits(x + y) && DigitsValue(x + y) == DigitsValue(x) * Pow10(|y|) + DigitsValue(y)
  {
    AllDigitsAppend(x, y);
    PrefixAppend(x, y, |y|);
  }

  lemma {:induction false} PrefixAppend(x: string, y: string, n: nat)
    requires AllDigits(x) && AllDigits(y) && AllDigits(x + y) && n <= |y|
    ensures PrefixValue(x + y, |x| + n) == DigitsValue(x) * Pow10(n) + PrefixValue(y, n)
  {
    if n == 0 {
      PrefixValueAgree(x + y, x, |x|);
    } else {
      assert (x + y)[|x| + n - 1] == y[n - 1];
      PrefixAppend(x, y, n - 1);
      ShiftDigit(DigitsValue(x), Pow10(n - 1), PrefixValue(y, n - 1), DigitValue(y[n - 1]));
    }
  }

  /** The unsigned literal `ip.fp` is read as its integer part and its fraction. */
  lemma UnsignedParse(ip: string, fp: string)
    requires IsDigitString(ip) && AllDigits(fp)
    ensures PointLiteral(ip, fp).Some? && ParseUnsigned(ip + "." + fp) == PointLiteral(ip, fp)
  {
    var u := ip + "." + fp;
    assert forall j :: 0 <= j < |ip| ==> u[j] != '.';
    IndexFromSkips(u, '.', 0, |ip|);
    assert u[..|ip|] == ip && u[|ip| + 1..] == fp;
  }

  /** `Fraction` is the digits after the point over the matching power of ten. */
  lemma FractionValue(fp: string)
    requires AllDigits(fp)
    ensures Fraction(fp) == DigitsValue(fp) as real / Pow10(|fp|) as real
  {
    FractionFromValue(fp, 0);
    assert fp[0..] == fp;
  }

  lemma {:induction false} FractionFromValue(fp: string, i: nat)
    requires AllDigits(fp) && i <= |fp|
    ensures AllDigits(fp[i..]) && FractionFrom(fp, i) == DigitsValue(fp[i..]) as real / Pow10(|fp| - i) as real
    decreases |fp| - i
  {
    if i < |fp| {
      var tail, rest := fp[i..], fp[i + 1..];
      assert tail[1..] == rest && tail[0] == fp[i];
      FractionFromValue(fp, i + 1);
      LeadingDigitValue(tail);
      FractionStep(FractionFrom(fp, i), FractionFrom(fp, i + 1), DigitValue(fp[i]), DigitsValue(rest),
                   Pow10(|rest|), DigitsValue(tail), Pow10(|tail|));
    }
  }

  /** The first digit of `fp` is worth its value times the power of ten of the digits after it. */
  lemma LeadingDigitValue(fp: string)
    requires AllDigits(fp) && fp != []
    ensures DigitsValue(fp) == DigitValue(fp[0]) * Pow10(|fp| - 1) + DigitsValue(fp[1..])
    ensures Pow10(|fp|) == 10 * Pow10(|fp| - 1)
  {
    var head := [fp[0]];
    assert fp == head + fp[1..];
    assert DigitsValue(head) == DigitValue(fp[0]) by {
      assert PrefixValue(head, 0) == 0;
    }
    DigitsValueAppend(head, fp[1..]);
  }

  lemma FractionStep(f: real, fr: real, d: int, v: int, p: int, dv: int, q: int)
    requires p >= 1 && dv == d * p + v && q == 10 * p
    requires f == (d as real + fr) / 10.0 && fr == v as real / p as real
    ensures f == dv as real / q as real
  {
    assert dv as real == d as real * p as real + v as real;
    assert f * q as real == (d as real + fr) * p as real;
  }

  /** A plain literal, an integer part, a point and a fraction, reads as its value, and with a minus sign as its negation. */
  lemma LiteralParse(ip: string, fp: string)
    requires IsDigitString(ip) && AllDigits(fp)
    ensures ParseLiteral(ip + "." + fp) == Some(DigitsValue(ip) as real + Fraction(fp))
    ensures ParseLiteral("-" + (ip + "." + fp)) == Some(-(DigitsValue(ip) as real + Fraction(fp)))
  {
    PlainPointParse(ip, fp);
    NegativePointParse(ip, fp);
  }

  lemma PlainPointParse(ip: string, fp: string)
    requires IsDigitString(ip) && AllDigits(fp)
    ensures ParseLiteral(ip + "." + fp) == Some(DigitsValue(ip) as real + Fraction(fp))
  {
    var u, e := ip + "." + fp, DigitsValue(ip) as real + Fraction(fp);
    PointFacts(ip, fp);
    UnsignedLiteral(u, e);
  }

  lemma NegativePointParse(ip: string, fp: string)
    requires IsDigitString(ip) && AllDigits(fp)
    ensures ParseLiteral("-" + (ip + "." + fp)) == Some(-(DigitsValue(ip) as real + Fraction(fp)))
  {
    var u, e := ip + "." + fp, DigitsValue(ip) as real + Fraction(fp);
    PointFacts(ip, fp);
    NegativeLiteral(u, e);
  }

  /** `ip.fp` is stripped, with or without a leading "-", and reads as an unsigned literal. */
  lemma PointFacts(ip: string, fp: string)
    requires IsDigitString(ip) && AllDigits(fp)
    ensures var u := ip + "." + fp;
            IsStripped(u) && u != [] && u[0] != '+' && u[0] != '-' && IsStripped("-" + u) &&
            ParseUnsigned(u) == Some(DigitsValue(ip) as real + Fraction(fp))
  {
    UnsignedParse(ip, fp);
    PointIsStripped(ip, fp);
  }

  lemma PointIsStripped(ip: string, fp: string)
    requires IsDigitString(ip) && AllDigits(fp)
    ensures var u := ip + "." + fp; IsStripped(u) && IsStripped("-" + u) && u[0] != '+' && u[0] != '-'
  {
    var u := ip + "." + fp;
    assert u[0] == ip[0] && ("-" + u)[0] == '-';
    assert u[|u| - 1] == ("-" + u)[|"-" + u| - 1] == (if fp == [] then '.' else fp[|fp| - 1]);
  }

  /** A stripped "-" and unsigned literal reads as the negated literal. */
  lemma NegativeLiteral(u: string, e: real)
    ensures IsStripped("-" + u) && ParseUnsigned(u) == Some(e) ==> ParseLiteral("-" + u) == Some(-e)
  {
    if IsStripped("-" + u) && ParseUnsigned(u) == Some(e) {
      NegativeSigned("-" + u, u, e);
    }
  }

  lemma NegativeSigned(t: string, u: string, e: real)
    requires t != [] && t[0] == '-' && t[1..] == u && ParseUnsigned(u) == Some(e)
    ensures Signed(t) == Some(-e)
  {
  }

  /** A stripped text without a sign reads as an unsigned literal. */
  lemma UnsignedLiteral(s: string, e: real)
    ensures IsStripped(s) && s != [] && s[0] != '+' && s[0] != '-' && ParseUnsigned(s) == Some(e) ==>
              ParseLiteral(s) == Some(e)
  {
  }

  /** Neither "$" nor "," occurs in a literal made of digits and a point, with or without a minus sign. */
  lemma LiteralIsClean(ip: string, fp: string)
    requires IsDigitString(ip) && AllDigits(fp)
    ensures var u := ip + "." + fp;
            '$' !in u && ',' !in u && '$' !in "-" + u && ',' !in "-" + u
  {
    var u := ip + "." + fp;
    assert forall k :: 0 <= k < |u| ==> u[k] == '.' || IsDigit(u[k]);
  }

  /** `str(i)`, a point and a fraction reads back as that number, and with a minus sign as its negation. */
  lemma DecimalRoundTrip(i: nat, fp: string, default: real)
    requires AllDigits(fp)
    ensures ParseDecimal(Some(NatToString(i) + "." + fp), default) == i as real + Fraction(fp)
    ensures ParseDecimal(Some("-" + (NatToString(i) + "." + fp)), default) == -(i as real + Fraction(fp))
  {
    var ip := NatToString(i);
    NatToStringRoundTrip(i);
    LiteralIsClean(ip, fp);
    PointIsStripped(ip, fp);
    LiteralParse(ip, fp);
  }

  /** A dollar amount with one thousands separator, `$a,ggg.fp`, reads as `a * 1000 + ggg` plus the fraction. */
  lemma GroupedDollarAmount(a: nat, g: string, fp: string, default: real)
    requires |g| == 3 && AllDigits(g) && AllDigits(fp)
    ensures ParseDecimal(Some("$" + NatToString(a) + "," + g + "." + fp), default) ==
              (a * 1000 + DigitsValue(g)) as real + Fraction(fp)
  {
    var ip := NatToString(a);
    GroupedClean(ip, g, fp);
    Regroup(ip, g, "." + fp);
    Regroup(ip + g, ".", fp);
    NatToStringRoundTrip(a);
    GroupValue(ip, g);
    PlainPointParse(ip + g, fp);
  }

  /** Three digits after `ip` multiply it by a thousand. */
  lemma GroupValue(ip: string, g: string)
    requires IsDigitString(ip) && |g| == 3 && AllDigits(g)
    ensures IsDigitString(ip + g) && DigitsValue(ip + g) == DigitsValue(ip) * 1000 + DigitsValue(g)
  {
    DigitsValueAppend(ip, g);
    assert Pow10(3) == 1000 by {
      assert Pow10(1) == 10 && Pow10(2) == 100;
    }
  }

  /** Cleaning `$ip,g.fp` leaves `ipg.fp`. */
  lemma GroupedClean(ip: string, g: string, fp: string)
    requires IsDigitString(ip) && AllDigits(g) && AllDigits(fp)
    ensures Clean("$" + ip + "," + g + "." + fp) == ip + (g + ("." + fp))
  {
    var t := g + "." + fp;
    GroupedShape(ip, g, fp);
    CleanStripped("$" + ip + "," + g + "." + fp);
    DropDollar(ip + ("," + t));
    DropComma(ip, t);
    Regroup(g, ".", fp);
  }

  /** A text without surrounding whitespace is cleaned by the two removals alone. */
  lemma CleanStripped(v: string)
    requires IsStripped(v)
    ensures Clean(v) == RemoveChar(RemoveChar(v, '$'), ',')
  {
  }

  lemma Regroup(a: string, b: string, c: string)
    ensures a + (b + c) == (a + b) + c
  {
  }

  lemma GroupedShape(ip: string, g: string, fp: string)
    requires IsDigitString(ip) && AllDigits(g) && AllDigits(fp)
    ensures var t := g + "." + fp;
            var v := "$" + ip + "," + g + "." + fp;
            v == "$" + (ip + ("," + t)) && IsStripped(v) && '$' !in ip + ("," + t) && ',' !in ip && ',' !in t
  {
    var t := g + "." + fp;
    var v := "$" + ip + "," + g + "." + fp;
    assert v == "$" + (ip + ("," + t));
    assert v[|v| - 1] == (if fp == [] then '.' else fp[|fp| - 1]);
    assert forall k :: 0 <= k < |t| ==> t[k] == '.' || IsDigit(t[k]);
    assert forall k :: 0 <= k < |ip| ==> IsDigit(ip[k]);
  }

  lemma DropDollar(w: string)
    requires '$' !in w
    ensures RemoveChar("$" + w, '$') == w
  {
    RemoveCharAppend("$", w, '$');
    assert RemoveChar("$", '$') == [];
  }

  lemma DropComma(ip: string, t: string)
    requires ',' !in ip && ',' !in t
    ensures RemoveChar(ip + ("," + t), ',') == ip + t
  {
    RemoveCharAppend(ip, "," + t, ',');
    RemoveCharAppend(",", t, ',');
    assert RemoveChar(",", ',') == [];
  }

  /** "$1,234.50" reads as 1234.5. */
  lemma GroupedDollarExample()
    ensures ParseDecimal(Some("$1,234.50"), 0.0) == 1234.5
  {
    assert NatToString(1) == "1";
    assert "$1,234.50" == "$" + NatToString(1) + "," + "234" + "." + "50";
    assert PrefixValue("234", 1) == 2 && PrefixValue("234", 2) == 23 && DigitsValue("234") == 234;
    assert FractionFrom("50", 1) == 0.0 && Fraction("50") == 0.5;
    GroupedDollarAmount(1, "234", "50", 0.0);
  }

  /** "-0.5" reads as -0.5. */
  lemma NegativeFractionExample()
    ensures ParseDecimal(Some("-0.5"), 0.0) == -0.5
  {
    assert NatToString(0) == "0";
    assert "-0.5" == "-" + (NatToString(0) + "." + "5");
    assert Fraction("5") == 0.5;
    DecimalRoundTrip(0, "5", 0.0);
  }

  /** `round(x, 2)` on a decimal: the nearest multiple of 0.01, ties to the even hundredth. */
  function RoundCents(x: real): (r: real)
    ensures (r * 100.0).Floor as real == r * 100.0
    ensures x - 0.005 <= r <= x + 0.005
    // Exactly half a hundredth away from two neighbours: the even hundredth wins.
    ensures x * 100.0 - (x * 100.0).Floor as real == 0.5 ==> (r * 100.0).Floor % 2 == 0
  {
    var q := x * 100.0;
    var f := q.Floor;
    var d := q - f as real;
    var n := if d < 0.5 then f else if d > 0.5 then f + 1 else if f % 2 == 0 then f else f + 1;
    assert q - 0.5 <= n as real <= q + 0.5;
    WholeCents(n, x);
    n as real / 100.0
  }

  /** A whole number of hundredths within half a hundredth of `x * 100` is a whole-cent value within 0.005 of `x`. */
  lemma WholeCents(n: int, x: real)
    requires x * 100.0 - 0.5 <= n as real <= x * 100.0 + 0.5
    ensures (n as real / 100.0) * 100.0 == n as real
    ensures ((n as real / 100.0) * 100.0).Floor == n
    ensures x - 0.005 <= n as real / 100.0 <= x + 0.005
  {
    assert (n as real / 100.0) * 100.0 == n as real;
  }

  /** Rounding keeps a value inside any whole-cent interval that holds it. */
  lemma RoundCentsWithin(x: real, lo: int, hi: int)
    requires lo as real / 100.0 <= x <= hi as real / 100.0
    ensures lo as real / 100.0 <= RoundCents(x) <= hi as real / 100.0
  {
    var q := x * 100.0;
    assert lo as real <= q <= hi as real;
    assert lo <= q.Floor <= hi;
  }
}

=== FILE: initiation.dfy ===
/**
 * Payment initiation (`initiate_payment`): ordered guards on the order and
 * its payments, the amount, the gateway request, and the branch on the
 * gateway's reply, which is an input here rather than an HTTP call.
 * Creating one PENDING payment row is the only effect.
 */
module Initiation {
  import opened Common
  import opened Text
  import opened Ledger

  /** What the initialize call produced: a transport failure, or an HTTP status and parsed body. */
  datatype GatewayReply =
    | NetworkError                 // requests.exceptions.RequestException
    | OtherError                   // any other exception while calling or decoding
    | Http(statusCode: int, body: GatewayBody)

  /** The fields of the gateway's JSON body the code reads; `statusIsTrue` is `status is True`. */
  datatype GatewayBody = GatewayBody(statusIsTrue: bool, reference: Option<string>, authorizationUrl: Option<string>)

  /** The request sent to the gateway: amount in minor units, currency, customer email, reference. */
  datatype GatewayRequest = GatewayRequest(amount: real, currency: string, email: string, reference: string)

  datatype Initiated = Initiated(
    code: int,
    message: string,
    request: Option<GatewayRequest>,
    payments: seq<Payment>,
    checkoutUrl: Option<string>,
    reference: Option<string>)

  const Currency := "KES"
  const PaymentMethod := "paystack"

  /** The stored statuses (lower-case) that block a new charge. */
  const BlockingStatuses: set<string> := {"completed", "processing", "shipped"}

  /** `order_{id}_{unix seconds}`. */
  function Reference(orderId: nat, now: nat): (r: string)
    ensures |r| > 6 && r[..6] == "order_"
  {
    "order_" + NatToString(orderId) + "_" + NatToString(now)
  }

  /** Reads an `order_{id}_{seconds}` reference back. */
  function ParseReference(s: string): Option<(nat, nat)> {
    if |s| < 6 || s[..6] != "order_" then None
    else
      var rest := s[6..];
      var id := BeforeFirst(rest, '_');
      if |id| == |rest| || !IsDigitString(id) then None
      else
        var t := rest[|id| + 1..];
        if !IsDigitString(t) then None else Some((DigitsValue(id), DigitsValue(t)))
  }

  /** The reference embeds the order id and the second: reading it back gives both. */
  lemma ReferenceRoundTrip(orderId: nat, now: nat)
    ensures ParseReference(Reference(orderId, now)) == Some((orderId, now))
  {
    var s := Reference(orderId, now);
    var a := NatToString(orderId);
    var b := NatToString(now);
    assert s[6..] == a + "_" + b;
    BeforeFirstDigits(a, b);
    assert s[6..][|a| + 1..] == b;
    NatToStringRoundTrip(orderId);
    NatToStringRoundTrip(now);
  }

  lemma {:induction false} BeforeFirstDigits(a: string, b: string)
    requires AllDigits(a)
    ensures BeforeFirst(a + "_" + b, '_') == a
  {
    if a != [] {
      assert (a + "_" + b)[1..] == a[1..] + "_" + b;
      BeforeFirstDigits(a[1..], b);
    }
  }

  /** Two charges get the same reference only for the same order in the same second. */
  lemma ReferenceInjective(id1: nat, t1: nat, id2: nat, t2: nat)
    requires Reference(id1, t1) == Reference(id2, t2)
    ensures id1 == id2 && t1 == t2
  {
    ReferenceRoundTrip(id1, t1);
    ReferenceRoundTrip(id2, t2);
  }

  /** The lookup's filter: a payment of the order whose stored status is in the blocking set. */
  predicate Blocks(sp: Spelling, p: Payment, orderId: nat) {
    p.order == Some(orderId) && sp.Of(p.status) in BlockingStatuses
  }

  /** `Payment.objects.filter(order=..., status__in=[...]).exists()`, scanning the rows in order. */
  function HasBlockingPayment(sp: Spelling, payments: seq<Payment>, orderId: nat): (b: bool)
    ensures b <==> exists j :: 0 <= j < |payments| && Blocks(sp, payments[j], orderId)
    decreases |payments|
  {
    if payments == [] then false
    else if Blocks(sp, payments[0], orderId) then true
    else
      var rest := HasBlockingPayment(sp, payments[1..], orderId);
      assert forall j :: 1 <= j < |payments| ==> payments[j] == payments[1..][j - 1];
      rest
  }

  /** `amount_override if amount_override else order.total_price`: a zero or absent override falls back. */
  function ChargeAmount(order: Order, amountOverride: Option<real>): (amount: real)
    ensures amountOverride.Some? && amountOverride.value != 0.0 ==> amount == amountOverride.value
    ensures amountOverride.None? || amountOverride.value == 0.0 ==> amount == order.totalPrice
  {
    if amountOverride.Some? && amountOverride.value != 0.0 then amountOverride.value else order.totalPrice
  }

  function Fail(code: int, message: string, request: Option<GatewayRequest>, payments: seq<Payment>): Initiated {
    Initiated(code, message, request, payments, None, None)
  }

  function Initiate(orderId: nat, order: Order, amountOverride: Option<real>, now: nat,
                    gateway: GatewayReply, sp: Spelling, payments: seq<Payment>): (r: Initiated)
    // The guards, in order; each refuses without contacting the gateway or creating anything.
    ensures order.status == OrderStatus.Created ==> r == Fail(400, "Order already paid", None, payments)
    ensures order.status != OrderStatus.Created && HasBlockingPayment(sp, payments, orderId) ==>
              r == Fail(400, " Payment is already in progress or completed for this order.", None, payments)
    ensures order.status != OrderStatus.Created && !HasBlockingPayment(sp, payments, orderId) &&
            ChargeAmount(order, amountOverride) <= 0.0 ==>
              r == Fail(400, "Invalid order amount", None, payments)
    // Past the guards the request is sent: minor units, KES, the customer's email and order_{id}_{now}.
    ensures r.request.Some? <==>
              order.status != OrderStatus.Created && !HasBlockingPayment(sp, payments, orderId) &&
              ChargeAmount(order, amountOverride) > 0.0
    ensures r.request.Some? ==>
              r.request.value == GatewayRequest(ChargeAmount(order, amountOverride) * 100.0, Currency,
                                                order.email, Reference(orderId, now))
    // At most one payment is created, appended, and only on a gateway reply of 200 with `status` true.
    ensures r.payments == payments || (|r.payments| == |payments| + 1 && r.payments[..|payments|] == payments)
    ensures |r.payments| == |payments| + 1 <==>
              r.request.Some? && gateway.Http? && gateway.statusCode == 200 && gateway.body.statusIsTrue
    ensures |r.payments| == |payments| + 1 ==>
              r.payments[|payments|] == Payment(Some(orderId), Some(order.customer), ChargeAmount(order, amountOverride),
                                                None, gateway.body.reference, None, PaymentStatus.Pending, PaymentMethod)
    // 200 only with the checkout URL and reference the gateway returned.
    ensures r.code == 200 <==>
              |r.payments| == |payments| + 1 && gateway.body.authorizationUrl.Some? && gateway.body.reference.Some?
    ensures r.code == 200 ==> r.checkoutUrl == gateway.body.authorizationUrl && r.reference == gateway.body.reference
    // A success body lacking the checkout URL or the reference raises after the insert: 500, the row kept.
    ensures |r.payments| == |payments| + 1 && !(gateway.body.authorizationUrl.Some? && gateway.body.reference.Some?) ==>
              r.code == 500 && r.request.Some?
    // Transport failures: 400 for a network error, 500 for anything else; a non-200 status is passed through.
    ensures r.request.Some? && gateway == NetworkError ==> r.code == 400 && r.payments == payments
    ensures r.request.Some? && gateway == OtherError ==> r.code == 500 && r.payments == payments
    ensures r.request.Some? && gateway.Http? && gateway.statusCode != 200 ==>
              r.code == gateway.statusCode && r.payments == payments
    ensures r.request.Some? && gateway.Http? && gateway.statusCode == 200 && !gateway.body.statusIsTrue ==>
              r.code == 400 && r.payments == payments
  {
    if order.status == OrderStatus.Created then Fail(400, "Order already paid", None, payments)
    else if HasBlockingPayment(sp, payments, orderId) then
      Fail(400, " Payment is already in progress or completed for this order.", None, payments)
    else
      var amount := ChargeAmount(order, amountOverride);
      if amount <= 0.0 then Fail(400, "Invalid order amount", None, payments)
      else
        var request := Some(GatewayRequest(amount * 100.0, Currency, order.email, Reference(orderId, now)));
        match gateway
        case NetworkError => Fail(400, "Payment initialization failed", request, payments)
        case OtherError => Fail(500, "An error occured", request, payments)
        case Http(code, body) =>
          if code != 200 then Fail(code, "Payment initialization failed", request, payments)
          else if body.statusIsTrue then
            var created := payments + [Payment(Some(orderId), Some(order.customer), amount, None, body.reference,
                                               None, PaymentStatus.Pending, PaymentMethod)];
            // Reading data["authorization_url"] / data["reference"] after the insert can raise KeyError.
            if body.authorizationUrl.Some? && body.reference.Some? then
              Initiated(200, "Payment initiated succesfully", request, created, body.authorizationUrl, body.reference)
            else Fail(500, "An error occured", request, created)
          else Fail(400, "Payment initialization failed", request, payments)
  }

  /**
   * The blocking-status check compares with lower-case strings while the
   * webhook compares with "COMPLETED": under any spelling at least one of
   * the two never matches a completed payment.
   */
  lemma SpellingsDisagree(sp: Spelling)
    ensures sp.Of(PaymentStatus.Completed) !in BlockingStatuses || sp.Of(PaymentStatus.Completed) != "COMPLETED"
  {
    assert "COMPLETED"[0] != "completed"[0];
  }

  /**
   * So when COMPLETED is stored as "COMPLETED", a completed payment does not
   * block a new charge: an order that moved past CREATED (here PROCESSING)
   * with a completed payment is charged again.
   */
  lemma CompletedPaymentDoesNotBlock(orderId: nat, order: Order, amountOverride: Option<real>, now: nat,
                                     body: GatewayBody, sp: Spelling, payments: seq<Payment>)
    requires sp.completed == "COMPLETED" && sp.pending !in BlockingStatuses && sp.failed !in BlockingStatuses
    requires order.status == OrderStatus.Processing && ChargeAmount(order, amountOverride) > 0.0
    requires body.statusIsTrue
    ensures |Initiate(orderId, order, amountOverride, now, Http(200, body), sp, payments).payments| == |payments| + 1
  {
    SpellingsDisagree(sp);
    assert !HasBlockingPayment(sp, payments, orderId);
  }

  /** Charging a CREATED order never contacts the gateway nor creates a payment, whatever the gateway would say. */
  lemma PaidOrderNeverCharged(orderId: nat, order: Order, amountOverride: Option<real>, now: nat,
                              gateway: GatewayReply, sp: Spelling, payments: seq<Payment>)
    requires order.status == OrderStatus.Created
    ensures var r := Initiate(orderId, order, amountOverride, now, gateway, sp, payments);
            r.request.None? && r.payments == payments && r.code == 400
  {
  }
}

=== FILE: ledger.dfy ===
/**
 * The payment/order store shared by the webhook and payment initiation:
 * the status enumerations, the Payment and Order records, and the store
 * as an ordered sequence of payments (the row id is the index) plus a map
 * of orders keyed by order id.
 *
 * The status enumerations are not defined in the code shown; they are
 * abstract here. Their stored spellings disagree between callers (one side
 * compares against "COMPLETED", the other against "completed"), so the
 * stored string of each payment status is a parameter, `Spelling`.
 */
module Ledger {
  import opened Common

  datatype PaymentStatus = Pending | Completed | Failed

  datatype OrderStatus = Pending | Created | Processing | Shipped | Completed | Cancelled | Refunded

  /** The string each payment status is stored as (the enumeration's values). */
  datatype Spelling = Spelling(pending: string, completed: string, failed: string) {
    function Of(s: PaymentStatus): string {
      match s
      case Pending => pending
      case Completed => completed
      case Failed => failed
    }
  }

  /**
   * One gateway transaction attempt. `reference` is set when a charge is
   * initiated, `transactionId` when a payment is first seen by the webhook;
   * `currency == None` stands for the model's default, which is not shown.
   */
  datatype Payment = Payment(
    order: Option<nat>,
    customer: Option<nat>,
    amount: real,
    currency: Option<string>,
    reference: Option<string>,
    transactionId: Option<string>,
    status: PaymentStatus,
    paymentMethod: string)

  datatype Order = Order(customer: nat, email: string, status: OrderStatus, totalPrice: real)

  datatype Store = Store(payments: seq<Payment>, orders: map<nat, Order>)

  /** The database constraints the code relies on: unique transaction ids and existing orders. */
  predicate WellFormed(st: Store) {
    && (forall i, j :: 0 <= i < j < |st.payments| && st.payments[i].transactionId.Some? ==>
          st.payments[i].transactionId != st.payments[j].transactionId)
    && (forall i :: 0 <= i < |st.payments| && st.payments[i].order.Some? ==>
          st.payments[i].order.value in st.orders)
  }

  /** The row `Payment.objects.get(transaction_id=tx)` returns, if any. */
  function FindByTransaction(ps: seq<Payment>, tx: string): (r: Option<nat>)
    ensures r.Some? ==> r.value < |ps| && ps[r.value].transactionId == Some(tx)
    ensures r.Some? ==> forall j :: 0 <= j < r.value ==> ps[j].transactionId != Some(tx)
    ensures r.None? ==> forall j :: 0 <= j < |ps| ==> ps[j].transactionId != Some(tx)
  {
    if ps == [] then None
    else if ps[0].transactionId == Some(tx) then Some(0)
    else
      match FindByTransaction(ps[1..], tx)
      case Some(k) => Some(k + 1)
      case None => None
  }

  /** In a well-formed store the row found is the only one with that transaction id. */
  lemma FindByTransactionUnique(st: Store, tx: string, k: nat)
    requires WellFormed(st)
    requires k < |st.payments| && st.payments[k].transactionId == Some(tx)
    ensures FindByTransaction(st.payments, tx) == Some(k)
  {
  }

  /** Replaces row `i` and keeps every other row. */
  function SetPayment(ps: seq<Payment>, i: nat, p: Payment): (r: seq<Payment>)
    requires i < |ps|
    ensures |r| == |ps| && r[i] == p
    ensures forall j :: 0 <= j < |ps| && j != i ==> r[j] == ps[j]
  {
    ps[i := p]
  }
}

=== FILE: permissions.dfy ===
/**
 * The staff-or-read-only permission (`IsStaffOrReadOnly.has_permission`):
 * reading is open to everyone, writing only to authenticated staff.
 */
module Permissions {
  import opened Common

  /** The request's user as the permission sees it; `None` is a missing user. */
  datatype User = User(isAuthenticated: bool, isStaff: bool)

  /** HTTP methods that only read. */
  const SafeMethods: set<string> := {"GET", "HEAD", "OPTIONS"}

  /** The permission as written: safe methods pass, anything else needs a present, authenticated staff user. */
  function HasPermission(httpMethod: string, user: Option<User>): (allowed: bool)
    ensures httpMethod in SafeMethods ==> allowed
    ensures user.Some? && user.value.isAuthenticated && user.value.isStaff ==> allowed
    ensures allowed && httpMethod !in SafeMethods ==> user.Some? && user.value.isAuthenticated && user.value.isStaff
  {
    if httpMethod in SafeMethods then true
    else user.Some? && user.value.isAuthenticated && user.value.isStaff
  }

  /** Whether `user` may perform writes at all. */
  ghost predicate CanWrite(user: Option<User>) {
    forall m :: m !in SafeMethods ==> HasPermission(m, user)
  }

  /** Reads are always allowed, whoever asks. */
  lemma SafeMethodsAlwaysAllowed(httpMethod: string, user: Option<User>)
    requires httpMethod in SafeMethods
    ensures HasPermission(httpMethod, user)
  {
  }

  /**
   * For every unsafe method the decision is exactly "present, authenticated
   * staff": anonymous users and authenticated non-staff users are refused.
   */
  lemma UnsafeMethodNeedsStaff(httpMethod: string, user: Option<User>)
    requires httpMethod !in SafeMethods
    ensures HasPermission(httpMethod, user) <==> user.Some? && user.value.isAuthenticated && user.value.isStaff
    ensures user.Some? && !user.value.isAuthenticated ==> !HasPermission(httpMethod, user)
    ensures user.Some? && user.value.isAuthenticated && !user.value.isStaff ==> !HasPermission(httpMethod, user)
  {
  }

  /** A user who is not authenticated staff is allowed exactly the safe methods. */
  lemma NonStaffIsReadOnly(user: Option<User>, httpMethod: string)
    requires !(user.Some? && user.value.isAuthenticated && user.value.isStaff)
    ensures HasPermission(httpMethod, user) <==> httpMethod in SafeMethods
  {
  }

  /** Granting more (authentication, staff) never takes a permission away. */
  lemma PermissionMonotone(httpMethod: string, u: User, v: User)
    requires (u.isAuthenticated ==> v.isAuthenticated) && (u.isStaff ==> v.isStaff)
    ensures HasPermission(httpMethod, Some(u)) ==> HasPermission(httpMethod, Some(v))
  {
  }

  /** Authenticated staff may write with every method; nobody else may write with any. */
  lemma WritersAreStaff(user: Option<User>)
    ensures CanWrite(user) <==> user.Some? && user.value.isAuthenticated && user.value.isStaff
  {
    if CanWrite(user) {
      assert "POST" !in SafeMethods;
      assert HasPermission("POST", user);
    }
  }
}

=== FILE: seeding.dfy ===
/**
 * The product seeder (`seed_products` management command): each CSV row is
 * normalised into product fields, and the rows are counted as created,
 * skipped or errors, with duplicates detected by product name.
 *
 * A CSV row is the map `csv.DictReader` produces; a column missing from a
 * short row maps to `None`, and calling `.strip()` on it raises.
 */
module Seeding {
  import opened Common
  import opened Text
  import opened Decimal

  type Row = map<string, Option<string>>

  /** `row.get(key, default)`. */
  function Field(row: Row, key: string, default: string): Option<string> {
    if key in row then row[key] else Some(default)
  }

  datatype ProductData = ProductData(
    name: string,
    description: string,
    price: real,
    stock: nat,
    category: string,
    tags: string,
    discount: real,
    isFeatured: bool,
    image: Option<string>)

  // ---------------------------------------------------------------- category

  const DefaultCategory := "General"

  /**
   * The first comma-separated piece, stripped, with ">" turned into "-" and
   * stripped again; as neither character is whitespace, that is the first
   * piece with ">" turned into "-", stripped once.
   */
  function FirstCategory(value: string): (r: string)
    ensures r == Strip(ReplaceChar(BeforeFirst(value, ','), '>', '-'))
    ensures IsStripped(r) && ',' !in r && '>' !in r
    ensures ',' !in value && '>' !in value && IsStripped(value) ==> r == value
  {
    var first := BeforeFirst(value, ',');
    var replaced := ReplaceChar(Strip(first), '>', '-');
    assert ',' !in Strip(first);
    StripReplace(first, '>', '-');
    ReplaceKeepsStripped(Strip(first), '>', '-');
    Strip(replaced)
  }

  /**
   * `clean_category`: the first comma-separated piece with ">" turned into
   * "-", stripped, or "General" when the value or that piece is empty.
   */
  function CleanCategory(value: Option<string>): (r: string)
    ensures r != [] && IsStripped(r) && ',' !in r && '>' !in r
    ensures value.None? || value == Some("") ==> r == DefaultCategory
    ensures value.Some? && value.value != "" ==>
              var c := Strip(ReplaceChar(BeforeFirst(value.value, ','), '>', '-'));
              r == if c != "" then c else DefaultCategory
    ensures value.Some? && ',' !in value.value && '>' !in value.value && IsStripped(value.value) && value.value != "" ==>
              r == value.value
  {
    if value.None? || value.value == "" then DefaultCategory
    else
      var category := FirstCategory(value.value);
      if category != "" then category else DefaultCategory
  }

  /** A WooCommerce category path keeps its first entry, with the separator rewritten. */
  lemma CleanCategoryExample()
    ensures CleanCategory(Some("Clothing > Shirts, Hats")) == "Clothing - Shirts"
  {
    ExampleFirstPiece();
    ExampleReplaced();
    ExampleStripped();
  }

  lemma ExampleFirstPiece()
    ensures BeforeFirst("Clothing > Shirts, Hats", ',') == "Clothing > Shirts"
  {
    assert "Clothing > Shirts, Hats" == "Clothing > Shirts" + ", Hats";
    BeforeFirstOfPrefix("Clothing > Shirts", ", Hats", ',');
  }

  lemma ExampleReplaced()
    ensures ReplaceChar("Clothing > Shirts", '>', '-') == "Clothing - Shirts"
  {
  }

  lemma ExampleStripped()
    ensures Strip("Clothing - Shirts") == "Clothing - Shirts"
  {
    assert IsStripped("Clothing - Shirts");
  }

  /** Cleaning a cleaned category changes nothing. */
  lemma CleanCategoryIdempotent(value: Option<string>)
    ensures CleanCategory(Some(CleanCategory(value))) == CleanCategory(value)
  {
  }

  /** A first piece that is blank once stripped gives the default category. */
  lemma BlankCategoryIsGeneral(value: string)
    requires value != "" && Strip(BeforeFirst(value, ',')) == ""
    ensures CleanCategory(Some(value)) == DefaultCategory
  {
  }

  // ------------------------------------------------------ description, stock

  /** The short description if non-empty, else the long one, else "Quality product: " and the name. */
  function Describe(name: string, shortDesc: string, longDesc: string): (r: string)
    ensures shortDesc != "" ==> r == shortDesc
    ensures shortDesc == "" && longDesc != "" ==> r == longDesc
    ensures shortDesc == "" && longDesc == "" ==> r == "Quality product: " + name
    ensures r != ""
  {
    if shortDesc != "" then shortDesc else if longDesc != "" then longDesc else "Quality product: " + name
  }

  const InStockDefault: nat := 100

  /** An all-digit stock column is the stock; else an "In stock?" of "1"/"true" means 100; else 0. */
  function StockLevel(stockValue: string, inStock: string): (r: nat)
    ensures IsDigitString(stockValue) ==> r == DigitsValue(stockValue)
    ensures !IsDigitString(stockValue) ==> r == (if inStock == "1" || inStock == "true" then InStockDefault else 0)
  {
    if IsDigitString(stockValue) then DigitsValue(stockValue)
    else if inStock == "1" || inStock == "true" then InStockDefault
    else 0
  }

  /** A stock column holding `str(n)` gives stock `n`, whatever the "In stock?" column says. */
  lemma StockColumnRoundTrip(n: nat, inStock: string)
    ensures StockLevel(NatToString(n), inStock) == n
  {
    NatToStringRoundTrip(n);
  }

  // ---------------------------------------------------------- price, discount

  datatype Pricing = Pricing(price: real, discount: real)

  /** The discount, in percent, of a sale price against a regular price. */
  function DiscountPercent(regular: real, sale: real): (r: real)
    requires regular > 0.0
    // Paying `sale` is paying `100 - r` percent of `regular`.
    ensures regular * (100.0 - r) == 100.0 * sale
  {
    (regular - sale) / regular * 100.0
  }

  /** A sale strictly between zero and the regular price is a discount strictly between 0 and 100 percent. */
  lemma DiscountInRange(regular: real, sale: real)
    requires 0.0 < sale < regular
    ensures 0.0 < DiscountPercent(regular, sale) < 100.0
  {
    var f := (regular - sale) / regular;
    assert f * regular == regular - sale;
    PositiveFactor(f, regular);
    assert (1.0 - f) * regular == sale;
    PositiveFactor(1.0 - f, regular);
  }

  lemma PositiveFactor(x: real, y: real)
    requires y > 0.0 && x * y > 0.0
    ensures x > 0.0
  {
  }

  /**
   * The price and the discount: the regular price (or, when it is not
   * positive, the sale price with default 9.99), overridden by the sale
   * price when 0 < sale < regular, in which case the discount is the
   * percentage saved rounded to cents; otherwise the discount is 0.
   */
  function Price(regularField: Option<string>, saleField: Option<string>): (r: Pricing)
    ensures 0.0 <= r.discount <= 100.0
    ensures var regular := ParseDecimal(regularField, 0.0);
            var sale := ParseDecimal(saleField, 0.0);
            && (0.0 < sale < regular ==> r.price == sale && r.discount == RoundCents(DiscountPercent(regular, sale)))
            && (!(0.0 < sale < regular) ==> r.discount == 0.0)
            && (!(0.0 < sale < regular) && regular > 0.0 ==> r.price == regular)
            && (!(0.0 < sale < regular) && regular <= 0.0 ==> r.price == ParseDecimal(saleField, 9.99))
  {
    var regular := ParseDecimal(regularField, 0.0);
    var fallback := if regular <= 0.0 then ParseDecimal(saleField, 9.99) else regular;
    var sale := ParseDecimal(saleField, 0.0);
    if regular > 0.0 && sale > 0.0 && sale < regular then
      DiscountInRange(regular, sale);
      RoundCentsWithin(DiscountPercent(regular, sale), 0, 10000);
      Pricing(sale, RoundCents(DiscountPercent(regular, sale)))
    else
      Pricing(fallback, 0.0)
  }

  // ------------------------------------------------------------------ images

  const ImageExtensions: set<string> := {"jpg", "jpeg", "png", "webp"}

  /** The URL's last "."-segment, lower-cased, when it is a known image type; "jpg" otherwise. */
  function ImageExtension(url: string): (e: string)
    ensures e in ImageExtensions
    ensures '.' !in e
    ensures Lower(AfterLast(url, '.')) in ImageExtensions ==> e == Lower(AfterLast(url, '.'))
    ensures Lower(AfterLast(url, '.')) !in ImageExtensions ==> e == "jpg"
  {
    var ext := Lower(AfterLast(url, '.'));
    if ext in ImageExtensions then ext else "jpg"
  }

  /** The saved file name: the product name lower-cased with spaces turned into "_", a ".", the extension. */
  function ImageFileName(productName: string, ext: string): (r: string)
    ensures ' ' !in ext ==> ' ' !in r
    ensures |r| == |productName| + 1 + |ext|
    ensures r[..|productName|] == ReplaceChar(Lower(productName), ' ', '_')
    ensures r[|productName|] == '.' && r[|productName| + 1..] == ext
  {
    ReplaceChar(Lower(productName), ' ', '_') + "." + ext
  }

  /** The extension of a saved file name is the extension it was saved with. */
  lemma ImageFileNameKeepsExtension(productName: string, url: string)
    ensures var ext := ImageExtension(url);
            ImageExtension(ImageFileName(productName, ext)) == ext
  {
    var ext := ImageExtension(url);
    FileNameExtension(productName, ext);
    KnownExtensionIsLower(ext);
  }

  /** The text after the last "." of a saved file name is the extension. */
  lemma FileNameExtension(productName: string, ext: string)
    requires '.' !in ext
    ensures AfterLast(ImageFileName(productName, ext), '.') == ext
  {
    var f := ImageFileName(productName, ext);
    assert f == f[..|productName| + 1] + ext;
    AfterLastOfSuffix(f[..|productName| + 1], ext);
  }

  lemma KnownExtensionIsLower(e: string)
    requires e in ImageExtensions
    ensures Lower(e) == e
  {
    if e == "jpg" {
      assert Lower("jpg") == "jpg";
    } else if e == "jpeg" {
      assert Lower("jpeg") == "jpeg";
    } else if e == "png" {
      assert Lower("png") == "png";
    } else {
      assert Lower("webp") == "webp";
    }
  }

  lemma {:induction false} AfterLastOfSuffix(a: string, b: string)
    requires a != [] && a[|a| - 1] == '.' && '.' !in b
    ensures AfterLast(a + b, '.') == b
  {
    if b != [] {
      assert (a + b)[..|a + b| - 1] == a + b[..|b| - 1];
      AfterLastOfSuffix(a, b[..|b| - 1]);
    } else {
      assert a + b == a;
    }
  }

  /**
   * `download_product_image`: the first comma-separated URL, stripped; no
   * file when there is none or the download fails (`fetched` says which
   * URLs download successfully).
   */
  function DownloadProductImage(images: Option<string>, productName: string, fetched: string -> bool): (r: Option<string>)
    ensures r.Some? ==> images.Some? && Strip(BeforeFirst(images.value, ',')) != "" && fetched(Strip(BeforeFirst(images.value, ',')))
    ensures r.Some? ==> AfterLast(r.value, '.') in ImageExtensions && |r.value| > |productName|
    ensures images.Some? && Strip(BeforeFirst(images.value, ',')) != "" && fetched(Strip(BeforeFirst(images.value, ','))) ==>
              r == Some(ImageFileName(productName, ImageExtension(Strip(BeforeFirst(images.value, ',')))))
  {
    if images.None? || images.value == "" then None
    else
      var url := Strip(BeforeFirst(images.value, ','));
      if url == "" || !fetched(url) then None
      else
        FileNameExtension(productName, ImageExtension(url));
        Some(ImageFileName(productName, ImageExtension(url)))
  }

  // -------------------------------------------------------------- extraction

  /** `extract_product_data`'s result: the fields, no product (`None`), or an exception that escapes. */
  datatype Extraction = Extracted(data: ProductData) | NoProduct | Raised

  /** Every column whose value gets `.strip()` is present; a `None` there raises inside the handler. */
  predicate StrippedColumnsPresent(row: Row) {
    && Field(row, "Short description", "").Some?
    && Field(row, "Description", "").Some?
    && Field(row, "Stock", "").Some?
    && Field(row, "In stock?", "").Some?
    && Field(row, "Tags", "").Some?
    && Field(row, "Is featured?", "").Some?
  }

  /** The product fields of a row whose name is `name` and whose stripped columns are present. */
  function Assemble(row: Row, name: string, downloadImages: bool, fetched: string -> bool): (d: ProductData)
    requires StrippedColumnsPresent(row) && name != ""
    ensures d.name == name && d.description != "" && d.category != ""
    ensures d.description == Describe(name, Strip(Field(row, "Short description", "").value), Strip(Field(row, "Description", "").value))
    ensures d.stock == StockLevel(Strip(Field(row, "Stock", "").value), Lower(Strip(Field(row, "In stock?", "").value)))
    ensures Pricing(d.price, d.discount) == Price(Field(row, "Regular price", "0"), Field(row, "Sale price", "0"))
    ensures 0.0 <= d.discount <= 100.0
    ensures d.category == CleanCategory(Field(row, "Categories", ""))
    ensures d.tags == Strip(Field(row, "Tags", "").value)
    ensures d.isFeatured <==> Strip(Field(row, "Is featured?", "").value) == "1"
    ensures d.image == if downloadImages then DownloadProductImage(Field(row, "Images", ""), name, fetched) else None
  {
    var pricing := Price(Field(row, "Regular price", "0"), Field(row, "Sale price", "0"));
    var description := Describe(name, Strip(Field(row, "Short description", "").value), Strip(Field(row, "Description", "").value));
    var stock := StockLevel(Strip(Field(row, "Stock", "").value), Lower(Strip(Field(row, "In stock?", "").value)));
    var category := CleanCategory(Field(row, "Categories", ""));
    var image := if downloadImages then DownloadProductImage(Field(row, "Images", ""), name, fetched) else None;
    assert description != "" && category != "";
    ProductData(name, description, pricing.price, stock, category, Strip(Field(row, "Tags", "").value),
                pricing.discount, Strip(Field(row, "Is featured?", "").value) == "1", image)
  }

  /** `extract_product_data`. */
  function ExtractProductData(row: Row, downloadImages: bool, fetched: string -> bool): (r: Extraction)
    // A missing name raises before `name` is bound, and the handler's own message then fails.
    ensures Field(row, "Name", "").None? <==> r.Raised?
    // A blank name, or a missing column that gets stripped, gives no product.
    ensures Field(row, "Name", "").Some? && Strip(Field(row, "Name", "").value) == "" ==> r == NoProduct
    ensures Field(row, "Name", "").Some? && !StrippedColumnsPresent(row) ==> r == NoProduct
    // A non-blank name with every stripped column present gives the assembled product.
    ensures Field(row, "Name", "").Some? && Strip(Field(row, "Name", "").value) != "" && StrippedColumnsPresent(row) ==>
              r == Extracted(Assemble(row, Strip(Field(row, "Name", "").value), downloadImages, fetched))
    ensures r.Extracted? ==> r.data.name == Strip(Field(row, "Name", "").value) && r.data.name != ""
    ensures r.Extracted? ==> r.data.description != "" && r.data.category != "" && 0.0 <= r.data.discount <= 100.0
    ensures r.Extracted? && !downloadImages ==> r.data.image.None?
  {
    var nameField := Field(row, "Name", "");
    if nameField.None? then Raised
    else
      var name := Strip(nameField.value);
      if name == "" || !StrippedColumnsPresent(row) then NoProduct
      else Extracted(Assemble(row, name, downloadImages, fetched))
  }

  // ------------------------------------------------------------- the command

  /** What one row of `handle`'s loop does: create a product, skip the row, or count an error. */
  datatype RowOutcome = Create(data: ProductData) | Skip | Error

  /** The `Type` column names a variation. */
  predicate IsVariation(row: Row) {
    Field(row, "Type", "").Some? && Lower(Strip(Field(row, "Type", "").value)) == "variation"
  }

  /** What an extraction amounts to against the names already in the catalogue. */
  function Settle(e: Extraction, names: set<string>): (r: RowOutcome)
    ensures r.Create? <==> e.Extracted? && e.data.name !in names
    ensures r.Create? ==> r.data == e.data
    ensures r.Error? <==> e.Raised?
  {
    match e
    case Raised => Error
    case NoProduct => Skip
    case Extracted(d) => if d.name in names then Skip else Create(d)
  }

  /**
   * One row, against the names already in the catalogue: a missing "Type"
   * raises (an error), variations are skipped, then the extracted product
   * is created unless its name is taken.
   */
  function ProcessRow(row: Row, names: set<string>, downloadImages: bool, fetched: string -> bool): (r: RowOutcome)
    ensures r.Create? ==> r.data.name !in names && r.data.name != ""
  {
    if Field(row, "Type", "").None? then Error
    else if IsVariation(row) then Skip
    else Settle(ExtractProductData(row, downloadImages, fetched), names)
  }

  /** A row without "Type" is an error, a variation is skipped, anything else is settled on its extraction. */
  lemma ProcessRowCases(row: Row, names: set<string>, downloadImages: bool, fetched: string -> bool)
    ensures Field(row, "Type", "").None? ==> ProcessRow(row, names, downloadImages, fetched) == Error
    ensures IsVariation(row) ==> ProcessRow(row, names, downloadImages, fetched) == Skip
    ensures Field(row, "Type", "").Some? && !IsVariation(row) ==>
              ProcessRow(row, names, downloadImages, fetched) == Settle(ExtractProductData(row, downloadImages, fetched), names)
  {
  }

  /** The three counters `handle` reports. */
  datatype Tally = Tally(created: nat, skipped: nat, errors: nat)

  function Total(t: Tally): nat {
    t.created + t.skipped + t.errors
  }

  /** The names of the products created, in creation order. */
  function NamesOf(ps: seq<ProductData>): set<string>
    decreases |ps|
  {
    if ps == [] then {} else NamesOf(ps[..|ps| - 1]) + {ps[|ps| - 1].name}
  }

  lemma {:induction false} NamesOfContains(ps: seq<ProductData>)
    ensures forall k :: 0 <= k < |ps| ==> ps[k].name in NamesOf(ps)
    decreases |ps|
  {
    if ps != [] {
      var p := ps[..|ps| - 1];
      NamesOfContains(p);
      assert forall k :: 0 <= k < |p| ==> ps[k] == p[k];
    }
  }

  lemma NamesOfAppend(ps: seq<ProductData>, d: ProductData)
    ensures NamesOf(ps + [d]) == NamesOf(ps) + {d.name}
  {
    assert (ps + [d])[..|ps|] == ps;
  }

  /**
   * Every product in `added` takes a name outside `start` and outside the
   * names of the products created before it.
   */
  predicate FreshNames(start: set<string>, added: seq<ProductData>)
    decreases |added|
  {
    added == [] ||
    (FreshNames(start, added[..|added| - 1]) && added[|added| - 1].name !in start + NamesOf(added[..|added| - 1]))
  }

  /** Fresh names means: none was in the catalogue to begin with, and no two created products share one. */
  lemma {:induction false} FreshNamesMeans(start: set<string>, added: seq<ProductData>)
    requires FreshNames(start, added)
    ensures forall k :: 0 <= k < |added| ==> added[k].name !in start
    ensures forall k, l :: 0 <= k < l < |added| ==> added[k].name != added[l].name
    decreases |added|
  {
    if added != [] {
      var p := added[..|added| - 1];
      FreshNamesMeans(start, p);
      NamesOfContains(p);
      assert forall k :: 0 <= k < |p| ==> added[k] == p[k];
    }
  }

  /** The state of `handle`'s loop: the counters and the products created so far. */
  datatype Run = Run(tally: Tally, added: seq<ProductData>)

  /** One row of the loop, against the catalogue as it stands after the rows before it. */
  function Step(run: Run, row: Row, start: set<string>, downloadImages: bool, fetched: string -> bool): Run {
    var t := run.tally;
    match ProcessRow(row, start + NamesOf(run.added), downloadImages, fetched)
    case Create(d) => Run(Tally(t.created + 1, t.skipped, t.errors), run.added + [d])
    case Skip => Run(Tally(t.created, t.skipped + 1, t.errors), run.added)
    case Error => Run(Tally(t.created, t.skipped, t.errors + 1), run.added)
  }

  /**
   * The rows of the CSV, in order, starting from the catalogue `start`:
   * every row counts exactly once, and every created product takes a fresh
   * name.
   */
  function RunRows(rows: seq<Row>, start: set<string>, downloadImages: bool, fetched: string -> bool): (r: Run)
    ensures Total(r.tally) == |rows|
    ensures |r.added| == r.tally.created
    ensures FreshNames(start, r.added)
    decreases |rows|
  {
    if rows == [] then Run(Tally(0, 0, 0), [])
    else
      var before := RunRows(rows[..|rows| - 1], start, downloadImages, fetched);
      var after := Step(before, rows[|rows| - 1], start, downloadImages, fetched);
      assert after.added == before.added || after.added[..|after.added| - 1] == before.added;
      after
  }

  /** Running one more row is one more `Step`. */
  lemma RunRowsSnoc(rows: seq<Row>, i: nat, start: set<string>, downloadImages: bool, fetched: string -> bool)
    requires i < |rows|
    ensures RunRows(rows[..i + 1], start, downloadImages, fetched) ==
            Step(RunRows(rows[..i], start, downloadImages, fetched), rows[i], start, downloadImages, fetched)
  {
    assert rows[..i + 1][..i] == rows[..i];
  }

  /**
   * `handle`: optionally clear the catalogue, then, when the CSV exists
   * (`rows != None`), run every row. Products are created with fresh,
   * distinct names, and the catalogue afterwards holds exactly the names it
   * started with plus the created ones.
   */
  method Seed(rows: Option<seq<Row>>, catalogue: set<string>, clear: bool, downloadImages: bool,
              fetched: string -> bool)
    returns (tally: Option<Tally>, names: set<string>, added: seq<ProductData>)
    ensures rows.None? ==> tally.None? && added == []
    ensures rows.Some? ==> tally == Some(RunRows(rows.value, if clear then {} else catalogue, downloadImages, fetched).tally)
    ensures rows.Some? ==> added == RunRows(rows.value, if clear then {} else catalogue, downloadImages, fetched).added
    ensures rows.Some? ==> Total(tally.value) == |rows.value| && |added| == tally.value.created
    ensures names == (if clear then {} else catalogue) + NamesOf(added)
    ensures forall i :: 0 <= i < |added| ==> added[i].name !in (if clear then {} else catalogue)
    ensures forall i, j :: 0 <= i < j < |added| ==> added[i].name != added[j].name
  {
    var start := if clear then {} else catalogue;
    names := start;
    added := [];
    if rows.None? {
      tally := None;
      return;
    }
    var rs := rows.value;
    var run := Run(Tally(0, 0, 0), []);
    var i := 0;
    while i < |rs|
      invariant 0 <= i <= |rs|
      invariant run == RunRows(rs[..i], start, downloadImages, fetched)
    {
      RunRowsSnoc(rs, i, start, downloadImages, fetched);
      run := Step(run, rs[i], start, downloadImages, fetched);
      i := i + 1;
    }
    assert rs[..|rs|] == rs;
    FreshNamesMeans(start, run.added);
    added := run.added;
    names := start + NamesOf(added);
    tally := Some(run.tally);
  }
}

=== FILE: stock.dfy ===
/**
 * The stock bookkeeping done by the model-signal receivers: product stock
 * is adjusted when inventory records and order items are created or
 * deleted, and a shipped order triggers an email. Product stock lives in a
 * map from product id to stock; a record whose product is absent (a null
 * foreign key) adjusts nothing.
 */
module Stock {
  import opened Common
  import opened Ledger

  type Stocks = map<nat, int>

  datatype InventoryRecord = InventoryRecord(product: Option<nat>, quantityAdded: int)

  datatype OrderItem = OrderItem(product: Option<nat>, quantity: int)

  /** `max(0, n)`: the clamp applied after a subtraction. */
  function ClampAtZero(n: int): (r: nat)
    ensures r >= n && (n >= 0 ==> r == n) && (n < 0 ==> r == 0)
  {
    if n < 0 then 0 else n
  }

  /** Stock of product `p`, when the record names it and it exists. */
  predicate Targets(stocks: Stocks, product: Option<nat>) {
    product.Some? && product.value in stocks
  }

  /** Every stock is non-negative. */
  predicate NonNegative(stocks: Stocks) {
    forall p :: p in stocks ==> stocks[p] >= 0
  }

  /** post_save on an inventory record: a new record adds its quantity; re-saving changes nothing. */
  function OnInventorySaved(stocks: Stocks, rec: InventoryRecord, created: bool): (r: Stocks)
    ensures r.Keys == stocks.Keys
    ensures forall p :: p in stocks && Some(p) != rec.product ==> r[p] == stocks[p]
    ensures created && Targets(stocks, rec.product) ==>
              r[rec.product.value] == stocks[rec.product.value] + rec.quantityAdded
    ensures !created ==> r == stocks
  {
    if created && Targets(stocks, rec.product) then
      stocks[rec.product.value := stocks[rec.product.value] + rec.quantityAdded]
    else stocks
  }

  /** post_delete on an inventory record: subtract its quantity, clamped at zero. */
  function OnInventoryDeleted(stocks: Stocks, rec: InventoryRecord): (r: Stocks)
    ensures r.Keys == stocks.Keys
    ensures forall p :: p in stocks && Some(p) != rec.product ==> r[p] == stocks[p]
    ensures Targets(stocks, rec.product) ==>
              r[rec.product.value] >= 0 &&
              r[rec.product.value] >= stocks[rec.product.value] - rec.quantityAdded &&
              (r[rec.product.value] == 0 || r[rec.product.value] == stocks[rec.product.value] - rec.quantityAdded)
  {
    if Targets(stocks, rec.product) then
      stocks[rec.product.value := ClampAtZero(stocks[rec.product.value] - rec.quantityAdded)]
    else stocks
  }

  /** post_save on an order item: a new item takes its quantity, clamped at zero; re-saving changes nothing. */
  function OnOrderItemSaved(stocks: Stocks, item: OrderItem, created: bool): (r: Stocks)
    ensures r.Keys == stocks.Keys
    ensures forall p :: p in stocks && Some(p) != item.product ==> r[p] == stocks[p]
    ensures created && Targets(stocks, item.product) ==>
              r[item.product.value] >= 0 &&
              r[item.product.value] >= stocks[item.product.value] - item.quantity &&
              (r[item.product.value] == 0 || r[item.product.value] == stocks[item.product.value] - item.quantity)
    ensures !created ==> r == stocks
  {
    if created && Targets(stocks, item.product) then
      stocks[item.product.value := ClampAtZero(stocks[item.product.value] - item.quantity)]
    else stocks
  }

  /** post_delete on an order item, as intended: the quantity goes back, with no clamp. */
  function OnOrderItemDeleted(stocks: Stocks, item: OrderItem): (r: Stocks)
    ensures r.Keys == stocks.Keys
    ensures forall p :: p in stocks && Some(p) != item.product ==> r[p] == stocks[p]
    ensures Targets(stocks, item.product) ==> r[item.product.value] == stocks[item.product.value] + item.quantity
  {
    if Targets(stocks, item.product) then
      stocks[item.product.value := stocks[item.product.value] + item.quantity]
    else stocks
  }

  /**
   * The receiver as written declares a `created` argument that post_delete
   * never passes, so every call fails with TypeError before the body runs:
   * the stock is left as it was and the error propagates to the delete.
   */
  datatype Delivery = Delivered(stocks: Stocks) | RaisedTypeError(stocks: Stocks)

  function OnOrderItemDeletedAsWritten(stocks: Stocks, item: OrderItem): (r: Delivery)
    ensures r.RaisedTypeError? && r.stocks == stocks
  {
    RaisedTypeError(stocks)
  }

  /** The discrepancy: as written, deleting an item with a positive quantity never restores its stock. */
  lemma AsWrittenRestockLost(stocks: Stocks, item: OrderItem)
    requires Targets(stocks, item.product) && item.quantity > 0
    ensures OnOrderItemDeletedAsWritten(stocks, item).stocks != OnOrderItemDeleted(stocks, item)
  {
    var p := item.product.value;
    assert OnOrderItemDeleted(stocks, item)[p] != stocks[p];
  }

  /** The clamped decrements keep every stock non-negative, whatever the quantity. */
  lemma DecrementsKeepNonNegative(stocks: Stocks, rec: InventoryRecord, item: OrderItem, created: bool)
    requires NonNegative(stocks)
    ensures NonNegative(OnInventoryDeleted(stocks, rec))
    ensures NonNegative(OnOrderItemSaved(stocks, item, created))
  {
  }

  /** The increments keep stock non-negative for non-negative quantities. */
  lemma IncrementsKeepNonNegative(stocks: Stocks, rec: InventoryRecord, item: OrderItem, created: bool)
    requires NonNegative(stocks) && rec.quantityAdded >= 0 && item.quantity >= 0
    ensures NonNegative(OnInventorySaved(stocks, rec, created))
    ensures NonNegative(OnOrderItemDeleted(stocks, item))
  {
  }

  /** Adding an inventory record and deleting it again restores every stock. */
  lemma InventoryAddDeleteRestores(stocks: Stocks, rec: InventoryRecord)
    requires NonNegative(stocks)
    ensures OnInventoryDeleted(OnInventorySaved(stocks, rec, true), rec) == stocks
  {
    var r := OnInventoryDeleted(OnInventorySaved(stocks, rec, true), rec);
    assert forall p :: p in stocks ==> r[p] == stocks[p];
  }

  /**
   * Ordering an item and deleting it again restores the stock exactly when
   * the stock covered the quantity; otherwise the clamp loses the shortfall
   * and the unclamped restock leaves more stock than before.
   */
  lemma OrderThenCancelRestoresIff(stocks: Stocks, item: OrderItem)
    requires NonNegative(stocks) && Targets(stocks, item.product) && item.quantity >= 0
    ensures var r := OnOrderItemDeleted(OnOrderItemSaved(stocks, item, true), item);
            && (r == stocks <==> stocks[item.product.value] >= item.quantity)
            && r[item.product.value] >= stocks[item.product.value]
  {
    var p := item.product.value;
    var r := OnOrderItemDeleted(OnOrderItemSaved(stocks, item, true), item);
    if stocks[p] >= item.quantity {
      assert forall q :: q in stocks ==> r[q] == stocks[q];
    } else {
      assert r[p] != stocks[p];
    }
  }

  /** The shipped-email receiver: whether a send was attempted and whether it went out. */
  datatype ShipNotice = ShipNotice(attempted: bool, delivered: bool)

  /**
   * post_save on an order: an update (not a create) with status SHIPPED
   * attempts the email; a failed send is swallowed, so the save never fails
   * because of it (the result has no error case).
   */
  function OnOrderSaved(created: bool, status: OrderStatus, sendFails: bool): (r: ShipNotice)
    ensures r.attempted <==> !created && status == OrderStatus.Shipped
    ensures r.delivered <==> r.attempted && !sendFails
  {
    if !created && status == OrderStatus.Shipped then ShipNotice(true, !sendFails) else ShipNotice(false, false)
  }
}

=== FILE: text.dfy ===
/**
 * The string operations of Python's `str` that the store code relies on:
 * `strip`, `lower`, `replace`, `split` (first and last piece) and `isdigit`,
 * plus decimal rendering of natural numbers (`str(n)` / `f"{n}"`).
 *
 * `lower` and `isdigit` are modelled on ASCII only.
 */
module Text {

  /** The characters for which Python's `str.isspace()` holds; `str.strip()` removes these. */
  predicate IsSpace(c: char) {
    if c <= ' ' then c == ' ' || ('\t' <= c <= '\r') || ('\U{1c}' <= c <= '\U{1f}')
    else
      '\U{85}' <= c &&
      (|| c == '\U{85}'
       || c == '\U{a0}'
       || c == '\U{1680}'
       || ('\U{2000}' <= c <= '\U{200a}')
       || c == '\U{2028}'
       || c == '\U{2029}'
       || c == '\U{202f}'
       || c == '\U{205f}'
       || c == '\U{3000}')
  }

  /** No whitespace at either end: what `str.strip()` returns. */
  predicate IsStripped(s: string) {
    s == [] || (!IsSpace(s[0]) && !IsSpace(s[|s| - 1]))
  }

  /** Removes leading whitespace (`str.lstrip()`). */
  function TrimStart(s: string): (r: string)
    ensures |r| <= |s|
    ensures r == [] || !IsSpace(r[0])
  {
    if s != [] && IsSpace(s[0]) then TrimStart(s[1..]) else s
  }

  /** What `TrimStart` keeps is a suffix of `s`, and what it drops is whitespace. */
  lemma {:induction false} TrimStartSlice(s: string)
    ensures var r := TrimStart(s); r == s[|s| - |r|..] && AllSpace(s[..|s| - |r|])
  {
    if s != [] && IsSpace(s[0]) {
      TrimStartSlice(s[1..]);
    }
  }

  /** Removes trailing whitespace (`str.rstrip()`). */
  function TrimEnd(s: string): (r: string)
    ensures |r| <= |s|
    ensures r == [] || !IsSpace(r[|r| - 1])
  {
    if s != [] && IsSpace(s[|s| - 1]) then TrimEnd(s[..|s| - 1]) else s
  }

  /** What `TrimEnd` keeps is a prefix of `s`, and what it drops is whitespace. */
  lemma {:induction false} TrimEndSlice(s: string)
    ensures var r := TrimEnd(s); r == s[..|r|] && AllSpace(s[|r|..])
  {
    if s != [] && IsSpace(s[|s| - 1]) {
      TrimEndSlice(s[..|s| - 1]);
    }
  }

  /** Every character is whitespace. */
  predicate AllSpace(s: string) {
    forall i :: 0 <= i < |s| ==> IsSpace(s[i])
  }

  /** `str.strip()`: removes whitespace at both ends and nothing else. */
  function Strip(s: string): (r: string)
    ensures IsStripped(r)
    ensures |r| <= |s|
    ensures forall c :: c in r ==> c in s
    ensures IsStripped(s) ==> r == s
  {
    var t := TrimStart(s);
    var r := TrimEnd(t);
    TrimStartSlice(s);
    TrimEndSlice(t);
    assert forall c :: c in r ==> c in t;
    r
  }

  /** How many whitespace characters `s` starts with. */
  function LeadingSpace(s: string): nat {
    |s| - |TrimStart(s)|
  }

  /** What `Strip` keeps is the slice of `s` after its leading whitespace, with only whitespace after it. */
  lemma StripSlice(s: string)
    ensures var i, r := LeadingSpace(s), Strip(s);
            i + |r| <= |s| && r == s[i..i + |r|] && AllSpace(s[..i]) && AllSpace(s[i + |r|..])
  {
    var t := TrimStart(s);
    var r := TrimEnd(t);
    TrimStartSlice(s);
    TrimEndSlice(t);
    StripWitness(s, t, r);
  }

  /** Cutting whitespace off the front of `s` (giving `t`) and then off the back (giving `r`) leaves a padded slice. */
  lemma StripWitness(s: string, t: string, r: string)
    requires |t| <= |s| && t == s[|s| - |t|..] && AllSpace(s[..|s| - |t|])
    requires |r| <= |t| && r == t[..|r|] && AllSpace(t[|r|..])
    ensures var i := |s| - |t|;
            0 <= i <= |s| - |r| && r == s[i..i + |r|] && AllSpace(s[..i]) && AllSpace(s[i + |r|..])
  {
    var i := |s| - |t|;
    assert s[i + |r|..] == t[|r|..];
  }

  /** Whitespace around a stripped text is exactly what `Strip` removes. */
  lemma StripPadded(p: string, m: string, q: string)
    requires AllSpace(p) && AllSpace(q) && IsStripped(m)
    ensures Strip(p + m + q) == m
  {
    if m == [] {
      assert p + m + q == p + q;
      TrimStartPadded(p + q, []);
      assert p + q + [] == p + q;
    } else {
      assert p + m + q == p + (m + q);
      TrimStartPadded(p, m + q);
      TrimEndPadded(m, q);
    }
  }

  lemma {:induction false} TrimStartPadded(p: string, t: string)
    requires AllSpace(p) && (t == [] || !IsSpace(t[0]))
    ensures TrimStart(p + t) == t
    decreases |p|
  {
    if p == [] {
      assert p + t == t;
    } else {
      assert (p + t)[1..] == p[1..] + t;
      TrimStartPadded(p[1..], t);
    }
  }

  lemma {:induction false} TrimEndPadded(t: string, q: string)
    requires AllSpace(q) && (t == [] || !IsSpace(t[|t| - 1]))
    ensures TrimEnd(t + q) == t
    decreases |q|
  {
    if q == [] {
      assert t + q == t;
    } else {
      assert (t + q)[..|t + q| - 1] == t + q[..|q| - 1];
      TrimEndPadded(t, q[..|q| - 1]);
    }
  }

  /** ASCII upper-case letters become lower-case; every other character is kept. */
  function LowerChar(c: char): char {
    if 'A' <= c <= 'Z' then (c as int + 32) as char else c
  }

  /** `str.lower()` on ASCII. */
  function Lower(s: string): (r: string)
    ensures |r| == |s|
    ensures forall i :: 0 <= i < |s| ==> r[i] == LowerChar(s[i])
    ensures forall i :: 0 <= i < |r| ==> !('A' <= r[i] <= 'Z')
  {
    seq(|s|, i requires 0 <= i < |s| => LowerChar(s[i]))
  }

  /** `s.replace(a, b)` for single characters `a` and `b`. */
  function ReplaceChar(s: string, a: char, b: char): (r: string)
    ensures |r| == |s|
    ensures forall i :: 0 <= i < |s| ==> r[i] == (if s[i] == a then b else s[i])
    ensures a != b ==> a !in r
    ensures a !in s ==> r == s
    ensures forall x :: x in r ==> x in s || x == b
  {
    seq(|s|, i requires 0 <= i < |s| => if s[i] == a then b else s[i])
  }

  /** Replacing in a concatenation replaces in each part. */
  lemma ReplaceCharAppend(s: string, t: string, a: char, b: char)
    ensures ReplaceChar(s + t, a, b) == ReplaceChar(s, a, b) + ReplaceChar(t, a, b)
  {
    var l := ReplaceChar(s + t, a, b);
    var r := ReplaceChar(s, a, b) + ReplaceChar(t, a, b);
    assert forall i :: 0 <= i < |l| ==> l[i] == r[i];
  }

  /** Replacing a character by a non-whitespace one keeps a stripped text stripped. */
  lemma ReplaceKeepsStripped(s: string, a: char, b: char)
    requires IsStripped(s) && !IsSpace(b)
    ensures IsStripped(ReplaceChar(s, a, b))
  {
  }

  /** Replacing one non-whitespace character by another commutes with `Strip`. */
  lemma StripReplace(s: string, a: char, b: char)
    requires !IsSpace(a) && !IsSpace(b)
    ensures Strip(ReplaceChar(s, a, b)) == ReplaceChar(Strip(s), a, b)
  {
    var m, i := Strip(s), LeadingSpace(s);
    StripSlice(s);
    assert s == s[..i] + m + s[i + |m|..];
    StripReplaceParts(s[..i], m, s[i + |m|..], a, b);
  }

  lemma StripReplaceParts(p: string, m: string, q: string, a: char, b: char)
    requires AllSpace(p) && AllSpace(q) && IsStripped(m) && !IsSpace(a) && !IsSpace(b)
    ensures Strip(ReplaceChar(p + m + q, a, b)) == ReplaceChar(m, a, b)
  {
    SpaceHasNo(p, a);
    SpaceHasNo(q, a);
    ReplaceCharAppend(p + m, q, a, b);
    ReplaceCharAppend(p, m, a, b);
    ReplaceKeepsStripped(m, a, b);
    StripPadded(p, ReplaceChar(m, a, b), q);
  }

  lemma SpaceHasNo(p: string, a: char)
    requires AllSpace(p) && !IsSpace(a)
    ensures a !in p
  {
  }

  /** `s.replace(c, "")`: every occurrence of `c` removed, the rest kept in order. */
  function RemoveChar(s: string, c: char): (r: string)
    ensures c !in r
    ensures |r| <= |s|
    ensures forall x :: x in r ==> x in s
    ensures forall x :: x in s && x != c ==> x in r
    ensures c !in s ==> r == s
  {
    if s == [] then []
    else if s[0] == c then RemoveChar(s[1..], c)
    else [s[0]] + RemoveChar(s[1..], c)
  }

  /** Removing a character piece by piece: the text left keeps every other character, in order. */
  lemma {:induction false} RemoveCharAppend(a: string, b: string, c: char)
    ensures RemoveChar(a + b, c) == RemoveChar(a, c) + RemoveChar(b, c)
    decreases |a|
  {
    if a != [] {
      assert (a + b)[0] == a[0] && (a + b)[1..] == a[1..] + b;
      RemoveCharAppend(a[1..], b, c);
    } else {
      assert a + b == b;
    }
  }

  /** The first position at or after `i` holding `c`, or `|s|`. */
  function IndexFrom(s: string, c: char, i: nat): (k: nat)
    requires i <= |s|
    ensures i <= k <= |s|
    ensures k < |s| ==> s[k] == c
    decreases |s| - i
  {
    if i == |s| || s[i] == c then i else IndexFrom(s, c, i + 1)
  }

  /** Positions `i` up to `k` without `c` are skipped, and position `k` holding `c` (or the end) is where the search stops. */
  lemma {:induction false} IndexFromSkips(s: string, c: char, i: nat, k: nat)
    requires i <= k <= |s|
    requires forall j :: i <= j < k ==> s[j] != c
    requires k == |s| || s[k] == c
    ensures IndexFrom(s, c, i) == k
    decreases k - i
  {
    if i < k {
      IndexFromSkips(s, c, i + 1, k);
    }
  }

  /** `s.split(sep)[0]`: the text before the first `sep`, or all of `s`. */
  function BeforeFirst(s: string, sep: char): (r: string)
    ensures |r| <= |s|
    ensures sep !in r
    ensures |r| < |s| ==> s[|r|] == sep
    ensures sep !in s ==> r == s
  {
    if s == [] || s[0] == sep then [] else [s[0]] + BeforeFirst(s[1..], sep)
  }

  /** What `BeforeFirst` keeps is a prefix of `s`. */
  lemma {:induction false} BeforeFirstIsPrefix(s: string, sep: char)
    ensures BeforeFirst(s, sep) <= s
  {
    if s != [] && s[0] != sep {
      BeforeFirstIsPrefix(s[1..], sep);
    }
  }

  /** The text before the first `sep` of `a + b` is `a` when `a` has no `sep` and `b` starts with one. */
  lemma {:induction false} BeforeFirstOfPrefix(a: string, b: string, sep: char)
    requires sep !in a && b != [] && b[0] == sep
    ensures BeforeFirst(a + b, sep) == a
    decreases |a|
  {
    if a == [] {
      assert a + b == b;
    } else {
      assert (a + b)[1..] == a[1..] + b;
      BeforeFirstOfPrefix(a[1..], b, sep);
    }
  }

  /** `s.split(sep)[-1]`: the text after the last `sep`, or all of `s`. */
  function AfterLast(s: string, sep: char): (r: string)
    ensures |r| <= |s| && r == s[|s| - |r|..]
    ensures sep !in r
    ensures |r| < |s| ==> s[|s| - |r| - 1] == sep
    ensures sep !in s ==> r == s
  {
    if s == [] || s[|s| - 1] == sep then [] else AfterLast(s[..|s| - 1], sep) + [s[|s| - 1]]
  }

  predicate IsDigit(c: char) {
    '0' <= c <= '9'
  }

  /** Every character is an ASCII digit (true of the empty string). */
  predicate AllDigits(s: string) {
    forall i :: 0 <= i < |s| ==> IsDigit(s[i])
  }

  /** `s.isdigit()` on ASCII: non-empty and all digits. */
  predicate IsDigitString(s: string) {
    s != [] && AllDigits(s)
  }

  function DigitValue(c: char): nat
    requires IsDigit(c)
  {
    c as int - '0' as int
  }

  function DigitChar(d: nat): (c: char)
    requires d < 10
    ensures IsDigit(c) && DigitValue(c) == d
  {
    ('0' as int + d) as char
  }

  /** The number a digit string denotes (`int(s)`); the empty string denotes 0. */
  function DigitsValue(s: string): nat
    requires AllDigits(s)
  {
    PrefixValue(s, |s|)
  }

  /** The number the first `n` digits of `s` denote. */
  function PrefixValue(s: string, n: nat): nat
    requires AllDigits(s) && n <= |s|
  {
    if n == 0 then 0 else 10 * PrefixValue(s, n - 1) + DigitValue(s[n - 1])
  }

  /** The first `n` digits decide what they denote: two strings that agree on them agree on the value. */
  lemma {:induction false} PrefixValueAgree(s: string, t: string, n: nat)
    requires AllDigits(s) && AllDigits(t) && n <= |s| && n <= |t|
    requires forall i :: 0 <= i < n ==> s[i] == t[i]
    ensures PrefixValue(s, n) == PrefixValue(t, n)
  {
    if n > 0 {
      PrefixValueAgree(s, t, n - 1);
    }
  }

  /** `str(n)`: the decimal digits of `n`, without leading zeros. */
  function NatToString(n: nat): (r: string)
    ensures IsDigitString(r)
    ensures r[0] == '0' ==> n == 0 && r == "0"
  {
    if n < 10 then [DigitChar(n)] else NatToString(n / 10) + [DigitChar(n % 10)]
  }

  /** Reading back the digits of `n` gives `n`. */
  lemma {:induction false} NatToStringRoundTrip(n: nat)
    ensures DigitsValue(NatToString(n)) == n
  {
    var s := NatToString(n);
    if n < 10 {
      assert s == [DigitChar(n)];
      assert PrefixValue(s, 0) == 0;
    } else {
      var h := NatToString(n / 10);
      assert s == h + [DigitChar(n % 10)];
      assert s[|s| - 1] == DigitChar(n % 10);
      PrefixValueAgree(s, h, |h|);
      NatToStringRoundTrip(n / 10);
    }
  }
}

=== FILE: webhook.dfy ===
/**
 * The payment-gateway webhook (`paystack_webhook`) as a pure function from
 * the request (HTTP method, parsed payload), the gateway's verify reply and
 * the store to the response, the new store and whether a payment-success
 * email was attempted.
 *
 * A `None` response is the view returning nothing, which several success
 * paths do. There is no signature check in this handler, so none is modelled.
 */
module Webhook {
  import opened Common
  import opened Ledger

  /** The request body after `json.loads`: `Malformed` when it is not JSON. */
  datatype Payload = Malformed | Parsed(event: Option<string>, reference: Option<string>)

  /** The JSON reply of the gateway's verify endpoint for the event's reference. */
  datatype VerifyReply = VerifyReply(status: bool, dataStatus: Option<string>, amount: int, currency: string)

  datatype Response = Response(code: int, message: string)

  datatype Outcome = Outcome(response: Option<Response>, store: Store, emailAttempted: bool)

  /** The row `get_or_create` hands back, and the store after it. */
  datatype Found = Found(store: Store, index: nat)

  const ChargeSuccess := "charge.success"
  const PaymentFailed := "invoice.payment_failed"

  /** Python truthiness of an optional string: present and non-empty. */
  predicate Truthy(s: Option<string>) {
    s.Some? && s.value != ""
  }

  /** The verify gate: a truthy `status` and `data.status == "success"`. */
  predicate Verified(v: VerifyReply) {
    v.status && v.dataStatus == Some("success")
  }

  /** The row `get_or_create` inserts: the defaults plus the lookup key, everything else the model's default. */
  function NewPayment(tx: string, v: VerifyReply): (p: Payment)
    ensures p.transactionId == Some(tx) && p.order.None? && p.status == PaymentStatus.Pending
    ensures p.amount * 100.0 == v.amount as real
  {
    Payment(None, None, v.amount as real / 100.0, Some(v.currency), None, Some(tx), PaymentStatus.Pending, "")
  }

  /** `Payment.objects.get_or_create(transaction_id=tx, defaults=...)`, taken as the intended object. */
  function GetOrCreate(st: Store, tx: string, v: VerifyReply): (r: Found)
    ensures r.index < |r.store.payments| && r.store.payments[r.index].transactionId == Some(tx)
    ensures r.store.orders == st.orders
    ensures FindByTransaction(st.payments, tx).Some? ==> r.store == st
    ensures FindByTransaction(st.payments, tx).None? ==>
              r.store.payments == st.payments + [NewPayment(tx, v)] && r.index == |st.payments|
    ensures WellFormed(st) ==> WellFormed(r.store)
  {
    match FindByTransaction(st.payments, tx)
    case Some(i) => Found(st, i)
    case None => Found(st.(payments := st.payments + [NewPayment(tx, v)]), |st.payments|)
  }

  /**
   * Marks row `i` COMPLETED and, when it is linked to an order, moves the
   * order to CREATED and attempts the success email; a failed send answers
   * 500 but keeps both updates.
   */
  function Complete(st: Store, i: nat, emailFails: bool): (r: Outcome)
    requires i < |st.payments|
    ensures |r.store.payments| == |st.payments|
    ensures r.store.payments[i] == st.payments[i].(status := PaymentStatus.Completed)
    ensures forall j :: 0 <= j < |st.payments| && j != i ==> r.store.payments[j] == st.payments[j]
    ensures r.store.orders.Keys == st.orders.Keys
    ensures forall o :: o in st.orders ==>
              r.store.orders[o] == if st.payments[i].order == Some(o) then st.orders[o].(status := OrderStatus.Created)
                                   else st.orders[o]
    ensures r.emailAttempted <==> st.payments[i].order.Some? && st.payments[i].order.value in st.orders
    ensures r.response.Some? <==> r.emailAttempted && emailFails
    ensures r.response.Some? ==> r.response.value.code == 500
    ensures WellFormed(st) ==> WellFormed(r.store)
  {
    var p := st.payments[i];
    var st1 := st.(payments := SetPayment(st.payments, i, p.(status := PaymentStatus.Completed)));
    if p.order.Some? && p.order.value in st.orders then
      var o := p.order.value;
      var st2 := st1.(orders := st1.orders[o := st.orders[o].(status := OrderStatus.Created)]);
      if emailFails then Outcome(Some(Response(500, "Failed to send email notification")), st2, true)
      else Outcome(None, st2, true)
    else
      Outcome(None, st1, false)
  }

  /**
   * The `charge.success` branch once the reference is truthy and the verify
   * gate passed: a payment already stored as "COMPLETED" is left alone with
   * no response; any other payment with that reference, or the PENDING row
   * inserted for an unknown reference, is completed.
   */
  function ReconcileCharge(st: Store, tx: string, v: VerifyReply, emailFails: bool, sp: Spelling): (r: Outcome)
    ensures var k := FindByTransaction(st.payments, tx);
            && (k.Some? && sp.Of(st.payments[k.value].status) == "COMPLETED" ==> r == Outcome(None, st, false))
            && (k.Some? && sp.Of(st.payments[k.value].status) != "COMPLETED" ==> r == Complete(st, k.value, emailFails))
    ensures var added := st.(payments := st.payments + [NewPayment(tx, v)]);
            && (FindByTransaction(st.payments, tx).None? && sp.pending != "COMPLETED" ==>
                  r == Complete(added, |st.payments|, emailFails))
            && (FindByTransaction(st.payments, tx).None? && sp.pending == "COMPLETED" ==>
                  r == Outcome(None, added, false))
  {
    var f := GetOrCreate(st, tx, v);
    if sp.Of(f.store.payments[f.index].status) != "COMPLETED" then Complete(f.store, f.index, emailFails)
    else Outcome(None, f.store, false)
  }

  /** The `invoice.payment_failed` branch for a truthy reference. */
  function RecordFailure(st: Store, tx: string): (r: Outcome)
    ensures FindByTransaction(st.payments, tx).None? ==> r == Outcome(Some(Response(404, "Payment not found")), st, false)
    ensures FindByTransaction(st.payments, tx).Some? ==> r.response.None? && !r.emailAttempted
    ensures r.store.orders == st.orders && |r.store.payments| == |st.payments|
    ensures forall j :: 0 <= j < |st.payments| && st.payments[j].transactionId != Some(tx) ==>
              r.store.payments[j] == st.payments[j]
    ensures forall j :: FindByTransaction(st.payments, tx) == Some(j) ==>
              j < |st.payments| && r.store.payments[j] == st.payments[j].(status := PaymentStatus.Failed)
    ensures WellFormed(st) ==> WellFormed(r.store)
  {
    match FindByTransaction(st.payments, tx)
    case None => Outcome(Some(Response(404, "Payment not found")), st, false)
    case Some(i) =>
      var p := st.payments[i];
      Outcome(None, st.(payments := SetPayment(st.payments, i, p.(status := PaymentStatus.Failed))), false)
  }

  /** The whole handler. */
  function Handle(httpMethod: string, payload: Payload, verify: VerifyReply, emailFails: bool,
                  sp: Spelling, st: Store): (r: Outcome)
    // Only POST is served; anything else is 405 and changes nothing.
    ensures httpMethod != "POST" ==> r == Outcome(Some(Response(405, "Method not allowed")), st, false)
    ensures httpMethod == "POST" && payload.Malformed? ==>
              r == Outcome(Some(Response(400, "Invalid JSON payload")), st, false)
    // An event the handler does not subscribe to is refused, unchanged.
    ensures httpMethod == "POST" && payload.Parsed? &&
            payload.event != Some(ChargeSuccess) && payload.event != Some(PaymentFailed) ==>
              r == Outcome(Some(Response(400, "Event not recognized")), st, false)
    // A success claim without a reference, or that the verify reply does not confirm, touches nothing.
    ensures httpMethod == "POST" && payload.Parsed? && payload.event == Some(ChargeSuccess) &&
            !Truthy(payload.reference) ==>
              r == Outcome(Some(Response(400, "Reference not found")), st, false)
    ensures httpMethod == "POST" && payload.Parsed? && payload.event == Some(ChargeSuccess) &&
            Truthy(payload.reference) && !Verified(verify) ==>
              r == Outcome(Some(Response(400, "Payment verification failed")), st, false)
    // A failure event without a reference falls through: no response, no change.
    ensures httpMethod == "POST" && payload.Parsed? && payload.event == Some(PaymentFailed) &&
            !Truthy(payload.reference) ==>
              r == Outcome(None, st, false)
    ensures httpMethod == "POST" && payload.Parsed? && payload.event == Some(PaymentFailed) &&
            Truthy(payload.reference) && FindByTransaction(st.payments, payload.reference.value).None? ==>
              r == Outcome(Some(Response(404, "Payment not found")), st, false)
    // Orders are never created or removed, and payments are only ever appended.
    ensures r.store.orders.Keys == st.orders.Keys
    ensures |st.payments| <= |r.store.payments| <= |st.payments| + 1
    ensures r.emailAttempted ==> payload.Parsed? && payload.event == Some(ChargeSuccess) && Verified(verify)
    // Nothing but the row carrying the event's reference changes.
    ensures forall j :: 0 <= j < |st.payments| && (payload.Malformed? || st.payments[j].transactionId != payload.reference) ==>
              r.store.payments[j] == st.payments[j]
    // Only a verified success claim can complete a payment or move an order, and only to CREATED.
    ensures forall j ::
              (0 <= j < |st.payments| && r.store.payments[j].status == PaymentStatus.Completed &&
               st.payments[j].status != PaymentStatus.Completed) ==>
              payload.Parsed? && payload.event == Some(ChargeSuccess) && Verified(verify)
    ensures forall o :: o in st.orders && r.store.orders[o] != st.orders[o] ==>
              payload.Parsed? && payload.event == Some(ChargeSuccess) && Verified(verify) &&
              r.store.orders[o] == st.orders[o].(status := OrderStatus.Created)
    ensures WellFormed(st) ==> WellFormed(r.store)
  {
    if httpMethod != "POST" then Outcome(Some(Response(405, "Method not allowed")), st, false)
    else
      match payload
      case Malformed => Outcome(Some(Response(400, "Invalid JSON payload")), st, false)
      case Parsed(event, reference) =>
        if event == Some(ChargeSuccess) then
          if !Truthy(reference) then Outcome(Some(Response(400, "Reference not found")), st, false)
          else if !Verified(verify) then Outcome(Some(Response(400, "Payment verification failed")), st, false)
          else ReconcileCharge(st, reference.value, verify, emailFails, sp)
        else if event == Some(PaymentFailed) then
          if !Truthy(reference) then Outcome(None, st, false)
          else RecordFailure(st, reference.value)
        else Outcome(Some(Response(400, "Event not recognized")), st, false)
  }

  /** A POST carrying a verified `charge.success` for reference `tx`. */
  predicate VerifiedCharge(httpMethod: string, payload: Payload, verify: VerifyReply, tx: string) {
    httpMethod == "POST" && payload == Parsed(Some(ChargeSuccess), Some(tx)) && tx != "" && Verified(verify)
  }

  /**
   * A verified success claim leaves the payment carrying its reference
   * COMPLETED, its order (if linked) CREATED with the email attempted; a
   * payment first seen here records the verified amount in major units.
   */
  lemma VerifiedChargeCompletes(httpMethod: string, payload: Payload, verify: VerifyReply, emailFails: bool,
                                sp: Spelling, st: Store, tx: string)
    requires WellFormed(st) && VerifiedCharge(httpMethod, payload, verify, tx)
    requires sp.pending != "COMPLETED" && sp.failed != "COMPLETED"
    ensures var r := Handle(httpMethod, payload, verify, emailFails, sp, st);
            && FindByTransaction(r.store.payments, tx).Some?
            && var k := FindByTransaction(r.store.payments, tx).value;
            && (r.store.payments[k].status == PaymentStatus.Completed)
            && (k == |st.payments| ==> r.store.payments[k].amount * 100.0 == verify.amount as real)
            && (k < |st.payments| && st.payments[k].status != PaymentStatus.Completed && st.payments[k].order.Some? ==>
                  r.emailAttempted && r.store.orders[st.payments[k].order.value].status == OrderStatus.Created)
  {
    var r := Handle(httpMethod, payload, verify, emailFails, sp, st);
    var f := GetOrCreate(st, tx, verify);
    FindByTransactionUnique(f.store, tx, f.index);
    FindByTransactionUnique(r.store, tx, f.index);
  }

  /**
   * Idempotence: when COMPLETED is stored as "COMPLETED", delivering the
   * same verified success claim a second time answers nothing, changes
   * nothing and sends no email.
   */
  lemma RedeliveryIsNoOp(httpMethod: string, payload: Payload, verify: VerifyReply, emailFails: bool,
                         sp: Spelling, st: Store, tx: string)
    requires WellFormed(st) && VerifiedCharge(httpMethod, payload, verify, tx)
    requires sp.completed == "COMPLETED"
    ensures var r1 := Handle(httpMethod, payload, verify, emailFails, sp, st);
            Handle(httpMethod, payload, verify, emailFails, sp, r1.store) == Outcome(None, r1.store, false)
  {
    var r1 := Handle(httpMethod, payload, verify, emailFails, sp, st);
    var f := GetOrCreate(st, tx, verify);
    FindByTransactionUnique(f.store, tx, f.index);
    FindByTransactionUnique(r1.store, tx, f.index);
    assert sp.Of(r1.store.payments[f.index].status) == "COMPLETED";
  }

  /**
   * The short-circuit itself: when COMPLETED is stored as "COMPLETED", a
   * verified success claim for a payment that is already COMPLETED answers
   * nothing, changes nothing and sends no email, however it got there.
   */
  lemma CompletedIsNoOp(httpMethod: string, payload: Payload, verify: VerifyReply, emailFails: bool,
                        sp: Spelling, st: Store, tx: string, k: nat)
    requires WellFormed(st) && VerifiedCharge(httpMethod, payload, verify, tx)
    requires sp.completed == "COMPLETED"
    requires k < |st.payments| && st.payments[k].transactionId == Some(tx)
    requires st.payments[k].status == PaymentStatus.Completed
    ensures Handle(httpMethod, payload, verify, emailFails, sp, st) == Outcome(None, st, false)
  {
    FindByTransactionUnique(st, tx, k);
  }

  /**
   * A verified success claim whose reference only unlinked payments carry
   * as transaction id (or none does) moves no order: the row it completes,
   * found or inserted, is linked to no order.
   */
  lemma UnlinkedChargeKeepsOrders(verify: VerifyReply, emailFails: bool, sp: Spelling, st: Store, tx: string)
    requires forall j :: 0 <= j < |st.payments| && st.payments[j].transactionId == Some(tx) ==> st.payments[j].order.None?
    ensures Handle("POST", Parsed(Some(ChargeSuccess), Some(tx)), verify, emailFails, sp, st).store.orders == st.orders
  {
    if Truthy(Some(tx)) && Verified(verify) {
      var f := GetOrCreate(st, tx, verify);
      assert f.store.payments[f.index].order.None?;
    }
  }

  /**
   * With any other spelling of COMPLETED the short-circuit never fires: a
   * redelivered claim for a completed payment whose order has shipped moves
   * the order back to CREATED and emails the customer again.
   */
  lemma MisspelledCompletedReruns(httpMethod: string, payload: Payload, verify: VerifyReply,
                                  sp: Spelling, st: Store, tx: string, k: nat)
    requires WellFormed(st) && VerifiedCharge(httpMethod, payload, verify, tx)
    requires sp.completed != "COMPLETED"
    requires k < |st.payments| && st.payments[k].transactionId == Some(tx)
    requires st.payments[k].status == PaymentStatus.Completed && st.payments[k].order.Some?
    requires st.orders[st.payments[k].order.value].status == OrderStatus.Shipped
    ensures var r := Handle(httpMethod, payload, verify, false, sp, st);
            && r.emailAttempted
            && r.store.orders[st.payments[k].order.value].status == OrderStatus.Created
  {
    FindByTransactionUnique(st, tx, k);
  }

  /** A failed email send answers 500 but the payment and order updates stand. */
  lemma EmailFailureKeepsUpdates(httpMethod: string, payload: Payload, verify: VerifyReply, sp: Spelling, st: Store)
    ensures var failed := Handle(httpMethod, payload, verify, true, sp, st);
            var sent := Handle(httpMethod, payload, verify, false, sp, st);
            && failed.store == sent.store
            && failed.emailAttempted == sent.emailAttempted
            && (sent.emailAttempted ==> sent.response.None? && failed.response.Some? && failed.response.value.code == 500)
  {
  }

  /**
   * As written, a failure event overwrites a COMPLETED payment: the status
   * becomes FAILED however the payment got where it was.
   */
  lemma FailureOverwritesCompleted(payload: Payload, verify: VerifyReply, emailFails: bool,
                                   sp: Spelling, st: Store, tx: string, k: nat)
    requires WellFormed(st) && payload == Parsed(Some(PaymentFailed), Some(tx)) && tx != ""
    requires k < |st.payments| && st.payments[k].transactionId == Some(tx)
    requires st.payments[k].status == PaymentStatus.Completed
    ensures var r := Handle("POST", payload, verify, emailFails, sp, st);
            r.response.None? && r.store.payments[k].status == PaymentStatus.Failed
  {
    FindByTransactionUnique(st, tx, k);
  }

  /**
   * So the delivery order matters: a verified success followed by a failure
   * event for the same reference leaves the payment FAILED.
   */
  lemma SuccessThenFailureEndsFailed(verify: VerifyReply, emailFails: bool, sp: Spelling, st: Store, tx: string)
    requires WellFormed(st) && tx != "" && Verified(verify)
    requires sp.pending != "COMPLETED" && sp.failed != "COMPLETED"
    ensures var r1 := Handle("POST", Parsed(Some(ChargeSuccess), Some(tx)), verify, emailFails, sp, st);
            var r2 := Handle("POST", Parsed(Some(PaymentFailed), Some(tx)), verify, emailFails, sp, r1.store);
            && FindByTransaction(r2.store.payments, tx).Some?
            && r2.store.payments[FindByTransaction(r2.store.payments, tx).value].status == PaymentStatus.Failed
  {
    var payload := Parsed(Some(ChargeSuccess), Some(tx));
    var r1 := Handle("POST", payload, verify, emailFails, sp, st);
    VerifiedChargeCompletes("POST", payload, verify, emailFails, sp, st, tx);
    var k := FindByTransaction(r1.store.payments, tx).value;
    FailureOverwritesCompleted(Parsed(Some(PaymentFailed), Some(tx)), verify, emailFails, sp, r1.store, tx, k);
  }

  /**
   * The charge branch as written: `get_or_create` returns the pair
   * `(payment, created)`, so reading `.status` raises AttributeError, which
   * the handler does not catch. The row is already inserted by then.
   */
  datatype Crash = Crash(store: Store, error: string)

  function ReconcileChargeAsWritten(st: Store, tx: string, v: VerifyReply): (r: Crash)
    ensures r.error == "AttributeError"
    // The crash leaves `get_or_create`'s insert behind and nothing else: orders and statuses untouched.
    ensures FindByTransaction(st.payments, tx).Some? ==> r.store == st
    ensures FindByTransaction(st.payments, tx).None? ==>
              r.store == st.(payments := st.payments + [NewPayment(tx, v)])
  {
    var f := GetOrCreate(st, tx, v);
    Crash(f.store, "AttributeError")
  }

  /**
   * The discrepancy: as written, no verified success claim ever completes a
   * payment or moves an order (existing rows keep their status; a new row
   * stays PENDING), while the intended reading completes it.
   */
  lemma AsWrittenNeverCompletes(st: Store, tx: string, v: VerifyReply, emailFails: bool, sp: Spelling)
    requires WellFormed(st)
    requires sp.pending != "COMPLETED" && sp.failed != "COMPLETED"
    requires FindByTransaction(st.payments, tx).None? ||
             st.payments[FindByTransaction(st.payments, tx).value].status != PaymentStatus.Completed
    ensures var bad := ReconcileChargeAsWritten(st, tx, v);
            && bad.store.orders == st.orders
            && (forall j :: 0 <= j < |bad.store.payments| ==>
                  bad.store.payments[j].status == if j < |st.payments| then st.payments[j].status else PaymentStatus.Pending)
            && FindByTransaction(bad.store.payments, tx).Some?
            && bad.store.payments[FindByTransaction(bad.store.payments, tx).value].status != PaymentStatus.Completed
    ensures var good := ReconcileCharge(st, tx, v, emailFails, sp);
            && FindByTransaction(good.store.payments, tx).Some?
            && good.store.payments[FindByTransaction(good.store.payments, tx).value].status == PaymentStatus.Completed
  {
    var f := GetOrCreate(st, tx, v);
    FindByTransactionUnique(f.store, tx, f.index);
    var good := ReconcileCharge(st, tx, v, emailFails, sp);
    FindByTransactionUnique(good.store, tx, f.index);
  }
}
